=== FILE: README.md ===
# TinyMonkey island core in Dafny

A model of the simulation core of TinyMonkey, a grid game. The island holds a
land/sea map, a band of erratic monkeys, a treasure and a pirate. This project covers:

- the island's land, occupancy and move-admission queries;
- the land-cell list;
- treasure and pirate placement by rejection sampling;
- the map-created and map-changed notifications;
- how the band adds monkeys;
- one tick of the band's movement loop;
- the single monkey step, as its unit tests pin it down;
- the controller's example map and the set-up order.

It is organised in six modules:

- `Carte` (`carte.dfy`): the map `seq<seq<int>>`, indexed `carte[x][y]` with 1 for land and 0 for sea. It holds the land test and the land-cell list, with a reference definition (`LandCells`) and the source's two nested loops (`GenererListCasesTerre`) proved equal to it.
- `Tirage` (`tirage.dfy`): the search every rejection loop performs over a supplied sequence of random draws: take the first accepted draw.
- `Singe` (`singe.dfy`): a monkey step against an admission oracle. The random draw is the order in which the four directions are tried.
- `Ile` (`ile.dfy`): the island state `Etat`. Observer notifications are appended to `journal`, one entry per notification; every registered observer receives each entry.
- `Bande` (`bande.dfy`): placement of monkeys, both as written and corrected (see Findings), and one tick of the loop.
- `Controleur` (`controleur.dfy`): the 30 x 30 example map, its 784 land cells, and the set-up in constructor order: map, then treasure, then 50 monkeys, then the pirate.

Randomness is a parameter. A rejection loop receives a finite sequence of candidate
draws and returns `None` when it accepts none of them (the source would keep drawing).
The monkey's step receives the order of the four directions.

The monkey's step follows the behaviour its unit tests fix:

- A monkey stops at the first accepted neighbour. It asks the island about its neighbours in draw order, and `testGetNextRandomPos` allows exactly one query when the first answer is yes.
- The monkey calls the pirate's kill handler only after it has moved. `testDeplacementSingeImpossible` allows no call to the pirate when the monkey is blocked.
- `isTerre` checks only the upper bounds. A negative coordinate below both bounds would index the matrix at a negative position. The model makes this a precondition, `Carte.Indexable`. `Controleur.LandNeighboursOnMap` and `Bande.TickRepeatable` show that on the example map no monkey ever reaches it.

## Model

| member | source | states |
|---|---|---|
| Carte.Largeur | src/tinymonkeys/modele/Ile.java:60-62 | the width is the number of rows and is positive on a usable map |
| Carte.Longueur | src/tinymonkeys/modele/Ile.java:69-71 | the length read from row 0 is the length of every row |
| Carte.IsTerre | src/tinymonkeys/modele/Ile.java:248-251 | true exactly on cells of value 1 inside the map; false at or beyond either upper bound |
| Carte.LandCellsSpec | src/tinymonkeys/modele/Ile.java:225-238 | the land-cell list contains a cell iff it is land, in strictly increasing row-major order, without repetition, as many entries as land cells |
| Carte.GenererListCasesTerre | src/tinymonkeys/modele/Ile.java:225-238 | the two nested loops build exactly the reference land-cell list: every land cell once, in row-major order |
| Tirage.FirstAccepted | src/tinymonkeys/modele/Ile.java:190-193 | a rejection loop keeps the first accepted draw: it is accepted, every earlier draw was refused, and there is none iff all draws are refused |
| Singe.GetNextRandomPos | srcTest/tinymonkeys/modele/TestSingeErratiqueMock.java:49-64 | the result is the first accepted neighbour in draw order; the island is asked about the neighbours up to that one and no further; none iff all four are refused, after all four were asked |
| Singe.FirstAnswerEndsQuestions | srcTest/tinymonkeys/modele/TestSingeErratiqueMock.java:49-64 | when the first neighbour asked is accepted, it is the result and it is the only question asked |
| Singe.DeplacerSinge | srcTest/tinymonkeys/modele/TestSingeErratiqueMock.java:71-105 | the monkey calls the kill handler iff some neighbour is accepted, then stands on an accepted orthogonal neighbour; otherwise it stays where it is |
| Singe.RefusedNeverTaken | srcTest/tinymonkeys/modele/TestSingeErratiqueMock.java:111-130 | a refused neighbour is never the monkey's new cell |
| Singe.SingleAcceptedIsTaken | srcTest/tinymonkeys/modele/TestSingeErratiqueMock.java:111-130 | with exactly one accepted neighbour, every draw moves the monkey there and calls the kill handler |
| Singe.TwoDirectionsScenario | srcTest/tinymonkeys/modele/TestSingeErratiqueMock.java:137-156 | on (3, 13) with only (3, 14) and (2, 13) accepted, every draw ends on one of the two with a kill call, and each of the two is reached by some draw |
| Singe.EveryAcceptedReachable | srcTest/tinymonkeys/modele/TestSingeErratiqueMock.java:190-329 | every accepted neighbour is the outcome of some draw of the direction order |
| Ile.NoSingeAt | src/tinymonkeys/modele/Ile.java:260-271 | the early-exit scan over the monkeys answers true iff no monkey stands on the cell |
| Ile.IsLibre | src/tinymonkeys/modele/Ile.java:260-271 | a cell is free iff no monkey is on it; the pirate is not considered |
| Ile.IsDeplacementPossible | src/tinymonkeys/modele/Ile.java:141-143 | a move is admitted iff the target is a land cell with no monkey on it; never beyond the upper bounds |
| Ile.CreationCarte | src/tinymonkeys/modele/Ile.java:90-94 | the map is stored and announced once as created; monkeys, treasure and pirate are untouched |
| Ile.SetCarte | src/tinymonkeys/modele/Ile.java:101-105 | the map is stored and announced once as changed; monkeys, treasure and pirate are untouched |
| Ile.CreationAndSetCarteDifferOnlyInEvent | src/tinymonkeys/modele/Ile.java:90-105 | creating and replacing the map reach the same state, and only the kind of the last notification tells them apart |
| Ile.CreationTresor | src/tinymonkeys/modele/Ile.java:187-199 | the treasure goes on the first land draw, whether or not a monkey is there, and is announced with its coordinates; no placement iff no draw is land; nothing else changes |
| Ile.TresorIgnoresSinges | src/tinymonkeys/modele/Ile.java:190-193 | the treasure's cell does not depend on where the monkeys are |
| Ile.SuppressionTresor | src/tinymonkeys/modele/Ile.java:204-208 | removal is announced first, and a new treasure is then created on land and announced |
| Ile.AjoutPirate | src/tinymonkeys/modele/Ile.java:121-132 | the avatar is set and the pirate starts on the first draw that is land without a monkey; no placement iff no draw qualifies; nothing is announced and nothing else changes |
| Bande.NombreSinges | src/tinymonkeys/modele/BandeDeSingesErratiques.java:75-78 | the count is the request when it is below the land count, and otherwise two fewer than the land count; always below the land count |
| Bande.Retirer | src/tinymonkeys/modele/BandeDeSingesErratiques.java:84 | removing entry k shortens the list by one: entries before k keep their place and those after it shift one place left, so on a list without repetition exactly the chosen cell is gone |
| Bande.AjoutDepuis | src/tinymonkeys/modele/BandeDeSingesErratiques.java:82-90 | the loop as written appends monkeys on candidate cells with ids counted from the loop counter; the first new monkey stands on the candidate its draw selects; the loop either completes with the requested count or stops at the failing iteration, keeping the monkeys added before it |
| Bande.AjoutSingesErratiques | src/tinymonkeys/modele/BandeDeSingesErratiques.java:69-91 | the call as written appends only monkeys and their creation events, on pairwise distinct land cells; the first new monkey stands on the land cell of index `draws[0]` in the land-cell list; when it completes it adds the clamped count |
| Bande.EveryLandCellPlaceable | src/tinymonkeys/modele/BandeDeSingesErratiques.java:82-85 | every land cell receives the first new monkey for some in-range draws, with which the call as written completes |
| Bande.AjoutSucceedsIff | src/tinymonkeys/modele/BandeDeSingesErratiques.java:82-84 | the call as written completes iff every draw is below the size of the shrinking candidate list at its iteration |
| Bande.TopDrawFails | src/tinymonkeys/modele/BandeDeSingesErratiques.java:84 | a first draw equal to the land count, which the source's generator can produce, stops the call before any monkey is added |
| Bande.AjoutDepuisCorrige | src/tinymonkeys/modele/BandeDeSingesErratiques.java:82-90 | the corrected loop always completes with the requested count and announces each monkey with its collection index |
| Bande.PremierTirageCorrige | src/tinymonkeys/modele/BandeDeSingesErratiques.java:84-85 | the corrected loop's first new monkey stands on the candidate its draw selects |
| Bande.AjoutSingesErratiquesCorrige | src/tinymonkeys/modele/BandeDeSingesErratiques.java:69-91 | the corrected call adds exactly the clamped count of monkeys on pairwise distinct land cells, announcing monkey k with id k |
| Bande.PremierSingeCorrige | src/tinymonkeys/modele/BandeDeSingesErratiques.java:72-85 | the corrected call's first new monkey stands on the land cell of index `draws[0]` in the land-cell list |
| Bande.FirstCallAgrees | src/tinymonkeys/modele/BandeDeSingesErratiques.java:82-90 | on a band with no monkey and in-range draws, the call as written completes and equals the corrected call |
| Bande.SecondCallReusesIdAndCell | src/tinymonkeys/modele/BandeDeSingesErratiques.java:85-89 | a second call as written announces the new monkey at index 1 with id 0, on the cell of the monkey already there |
| Bande.SecondCallCorrigeUsesIndex | src/tinymonkeys/modele/BandeDeSingesErratiques.java:87-89 | the corrected second call announces the same monkey with id 1 |
| Bande.PasDuSinge | src/tinymonkeys/modele/BandeDeSingesErratiques.java:110-111 | the monkey moves and calls the kill handler iff some neighbour is land with no monkey on it; when it moves it ends on such a neighbour, otherwise it stays |
| Bande.DeplacerUn | src/tinymonkeys/modele/BandeDeSingesErratiques.java:110-118 | one monkey steps against the current state: it moves iff some neighbour is free land, and then onto an adjacent free land cell; the other monkeys are unchanged; its index is recorded as a kill call iff it moved; its move is announced with its index and new coordinates |
| Bande.DeplacerUnPremierLibre | srcTest/tinymonkeys/modele/TestSingeErratiqueMock.java:49-64 | the draw decides the step: a monkey that moves ends on the first neighbour, in the draw's direction order, that is land with no monkey on it, and every earlier neighbour in that order is not |
| Bande.EveryFreeNeighbourReachable | srcTest/tinymonkeys/modele/TestSingeErratiqueMock.java:190-329 | every neighbour that is land with no monkey on it is the monkey's step for some draw of the direction order |
| Bande.DeplacerUnPas | src/tinymonkeys/modele/BandeDeSingesErratiques.java:110-111 | the monkey's new cell is the step the band admits at its turn: moved iff a neighbour is free land, and then onto such a neighbour |
| Bande.BougesSpec | src/tinymonkeys/modele/BandeDeSingesErratiques.java:108-119 | the list of moved monkeys holds exactly the indices at which the band changed, each once, in increasing order |
| Bande.DeplacerDepuis | src/tinymonkeys/modele/BandeDeSingesErratiques.java:109-119 | monkeys i onwards move in index order: earlier ones are unchanged; each later one took the step admitted by the band as its predecessors left it, so it stays only when no neighbour was free land then; the kill calls are the indices of the monkeys that moved, in order; distinct cells and standing on land are preserved |
| Bande.DeplacerDepuisStep | src/tinymonkeys/modele/BandeDeSingesErratiques.java:109-119 | one monkey's step followed by the rest of the tick gives the tick from that monkey on: positions, kill calls and the state each monkey saw |
| Bande.DeplacerDepuisAnnounces | src/tinymonkeys/modele/BandeDeSingesErratiques.java:112-118 | the k-th notification of the tick announces monkey k with the coordinates it ends the tick on |
| Bande.DeplacerUnKeepsDistinct | src/tinymonkeys/modele/BandeDeSingesErratiques.java:110-111 | one step keeps the monkeys on pairwise distinct cells |
| Bande.DeplacerUnKeepsLand | src/tinymonkeys/modele/BandeDeSingesErratiques.java:110-111 | one step keeps every monkey on land |
| Bande.Tick | src/tinymonkeys/modele/BandeDeSingesErratiques.java:108-119 | one tick: monkey k takes the step admitted by the band with monkeys before k already moved, so it stays only when no neighbour is free land at its turn; the kill calls are the indices of the monkeys that moved, in index order; exactly one move notification per monkey, in index order, with its final position; distinct cells and land are preserved; map, treasure and pirate position untouched |
| Bande.TickRepeatable | src/tinymonkeys/modele/BandeDeSingesErratiques.java:106-119 | on a map without land on row 0 or column 0, a band on land can take a tick and is on land again afterwards, so the loop can go on |
| Controleur.ExempleCarte | src/tinymonkeys/controleur/Controleur.java:96-118 | the example map is 30 x 30, sea on every border cell, land on every interior cell |
| Controleur.BordureLand | src/tinymonkeys/controleur/Controleur.java:101-116 | on a sea-bordered map, a cell is land iff it is an interior cell |
| Controleur.LandNeighboursOnMap | src/tinymonkeys/controleur/Controleur.java:101-108 | every neighbour of a land cell of a sea-bordered map lies on the map, so the land test never sees a negative coordinate |
| Controleur.LandCount | src/tinymonkeys/controleur/Controleur.java:110-116 | a sea-bordered w x h map has (w - 2) * (h - 2) land cells |
| Controleur.ExempleCount | src/tinymonkeys/controleur/Controleur.java:62-65 | the example map has (30 - 2) * (30 - 2) = 784 land cells, so the 50 requested monkeys are not clamped |
| Controleur.CreerCarteEtTresor | src/tinymonkeys/controleur/Controleur.java:62-63 | after map creation and treasure placement there are two notifications, map then treasure, and the treasure is on an interior cell; no treasure iff no draw is interior |
| Controleur.PlacerSinges | src/tinymonkeys/controleur/Controleur.java:65 | the monkey stage fails iff some draw reaches the size of the shrinking candidate list at its iteration; otherwise 50 monkeys on pairwise distinct land cells, announced in order with ids 0 to 49 |
| Controleur.PlacerPirate | src/tinymonkeys/controleur/Controleur.java:68 | the pirate, placed last, starts on land away from every monkey; the island announces nothing |
| Controleur.Demarrage | src/tinymonkeys/controleur/Controleur.java:50-69 | the set-up fails exactly when a stage fails: no treasure draw is interior, a monkey draw is the top of its range, or every pirate draw is off the interior or on one of 50 distinct cells (those the monkeys were given); when it completes, every monkey draw was below the list size, and it yields 50 monkeys on distinct land cells, a treasure on land, a pirate on land off every monkey, and the notification order map, treasure, monkeys 0 to 49 |

## Left out

- Threads, `Thread.sleep`, the interrupted-sleep log and the `while (true)` loop: the model covers one tick (`Bande.Tick`). `Bande.TickRepeatable` shows that another can always follow on maps without land on row 0 or column 0, such as the example map.
- Concurrency between the tick thread and the pirate's commands: every operation is one atomic state change.
- Observer registration and fan-out: each notification is one `journal` entry, whatever the number of observers.
- `java.util.Random` and `CaseVide.genererCaseAleatoire`: draws are parameters. Termination of the rejection loops, which needs a probabilistic argument, is not modelled.
- The pirate's own class: `tuerPirate`, `positionInitiale` notifications and `demandeDeplacement` are not modelled. A kill call is recorded as the calling monkey's index in `Pirate.attaques`.
- The monkey's own class is not part of this model. Its step is modelled from the behaviour its unit tests fix: first accepted neighbour in a random order, then the kill call.
- Singe.EveryAcceptedReachable: the tests' equiprobability claims are statistical. The model proves only that every accepted direction is reachable by some draw and that refused ones never are.
- Rendering and the window (`Fenetre`, `VueTresor`), images, and keyboard input.
- `carte.clone()` aliasing: Dafny sequences are values, so the stored map cannot be shared.
- Empty or ragged maps: `Carte.Valid` requires at least one row and every row as long as row 0, so the model drops all other maps. The source throws on an empty map, and on a row shorter than row 0 as soon as one of these reads it past its end at a coordinate below row 0's length: the land test (Ile.java:249-250), the treasure loop (Ile.java:193), which at set-up runs before the land-cell list is first built (Controleur.java:63 before :65), or the land-cell list (Ile.java:232). A row longer than row 0 is accepted, and its extra cells are silently ignored: the length (Ile.java:70), the land-cell list (Ile.java:231) and the land test (Ile.java:249) all stop at row 0's length.
- Carte.IsTerre: the negative-coordinate case, where Java throws, is excluded by the precondition `Indexable` instead of being modelled as an exception.
- Bande.AjoutSingesErratiquesCorrige: keeps the source's candidate list of all land cells, so a second call can put a monkey on an occupied cell. The set-up calls it once, on an empty band, where no cell is occupied.
- Bande.Tick: requires every monkey's neighbours to be safe for the land test. `Bande.TickRepeatable` and `Controleur.LandNeighboursOnMap` discharge this for maps without land on row 0 or column 0, such as the example map. The pirate's position is kept because the effect of `tuerPirate` is not modelled; only the kill calls are recorded.
- Controleur.Demarrage: states the pirate loop's failure through some 50 distinct occupied cells rather than through the monkey draws, because which cells the monkeys were given depends on the whole draw sequence.

## Findings

| source | as written | input that shows it | evidently intended | confidence | as-written member | corrected member |
|---|---|---|---|---|---|---|
| src/tinymonkeys/modele/BandeDeSingesErratiques.java:84 | the index given to `remove` is drawn in [0, size], one past the last valid index | a first draw equal to the number of land cells (784 on the example map): `remove` fails and no monkey is added | draw in [0, size), so every iteration removes a real candidate and the call always completes | not executed | Bande.TopDrawFails | Bande.AjoutSingesErratiquesCorrige |
| src/tinymonkeys/modele/BandeDeSingesErratiques.java:87-89 | the creation event's id is the loop counter, which restarts at 0 on each call | on a one-row map of three land cells with one monkey at (0, 0), a call for one monkey with draw 0 announces id 0 for the monkey at index 1 | the id is the monkey's index in the collection, the index the movement events use | not executed | Bande.SecondCallReusesIdAndCell | Bande.SecondCallCorrigeUsesIndex |

=== FILE: bande.dfy ===
/** The band of erratic monkeys: adding monkeys on random land cells, and one tick
    of the band's movement loop (every monkey moves once, in collection order). */
module Bande {
  import opened Carte
  import opened Tirage
  import opened Singe
  import opened Ile

  /** The number of monkeys one call adds: the request, or two fewer than the land
      cells when the request reaches the land-cell count. */
  function NombreSinges(n: int, terre: nat): (c: int)
    ensures c <= n && c < terre
    ensures n < terre ==> c == n
    ensures n >= terre ==> c == terre - 2
    ensures terre < 2 && n >= terre ==> c <= 0
  {
    if n >= terre then terre - 2 else n
  }

  /** `List.remove(int)` on the candidate list: the entries after `k` shift one place
      to the left, the others keep their place. */
  function Retirer(s: seq<Pos>, k: nat): (r: seq<Pos>)
    requires k < |s|
    ensures |r| == |s| - 1
    ensures forall j :: 0 <= j < |r| ==> r[j] == if j < k then s[j] else s[j + 1]
    ensures forall c :: c in r ==> c in s
    ensures Distinct(s) ==> Distinct(r) && s[k] !in r
  {
    var reste := s[..k] + s[k + 1..];
    assert forall j :: 0 <= j < |reste| ==> reste[j] == if j < k then s[j] else s[j + 1];
    reste
  }

  /** State reached by a placement call, and the iteration at which the candidate
      list rejected the drawn index, if it did (the exception leaves the monkeys
      added before it in place). */
  datatype Ajout = Ajout(ile: Etat, echec: Option<nat>)

  /** Only monkeys and notifications are appended; nothing else changes. */
  ghost predicate AppendsOnly(e: Etat, r: Etat) {
    && r.carte == e.carte && r.tresor == e.tresor && r.pirate == e.pirate
    && |e.singes| <= |r.singes| && r.singes[..|e.singes|] == e.singes
    && |r.journal| == |e.journal| + (|r.singes| - |e.singes|)
    && r.journal[..|e.journal|] == e.journal
  }

  /** Every new monkey stands on a cell of `cases`, and no two new monkeys share a
      cell when `cases` has no repetition. */
  ghost predicate DrawnFrom(e: Etat, r: Etat, cases: seq<Pos>)
    requires |e.singes| <= |r.singes|
  {
    && (forall k :: |e.singes| <= k < |r.singes| ==> r.singes[k] in cases)
    && (Distinct(cases) ==> Distinct(r.singes[|e.singes|..]))
  }

  /** The j-th new monkey is announced by the j-th new notification, with id
      `base + j` and its coordinates. */
  ghost predicate AnnouncedFrom(e: Etat, r: Etat, base: int)
    requires AppendsOnly(e, r)
  {
    forall k :: |e.singes| <= k < |r.singes| ==>
      r.journal[|e.journal| + (k - |e.singes|)] == SingeCree(base + (k - |e.singes|), r.singes[k].x, r.singes[k].y)
  }

  /** What every placement, complete or interrupted, guarantees. */
  ghost predicate Appended(e: Etat, r: Etat, cases: seq<Pos>, base: int) {
    AppendsOnly(e, r) && DrawnFrom(e, r, cases) && AnnouncedFrom(e, r, base)
  }

  /** Iterations `i .. count - 1` of the placement loop as written: the index is drawn
      in [0, size] and the event id is the loop counter. */
  function AjoutDepuis(e: Etat, cases: seq<Pos>, draws: seq<nat>, i: nat, count: int): (r: Ajout)
    requires count <= |draws|
    ensures Appended(e, r.ile, cases, i)
    ensures r.echec.None? ==> |r.ile.singes| == |e.singes| + (if count > i then count - i else 0)
    ensures r.echec.Some? ==> i <= r.echec.value < count && |r.ile.singes| == |e.singes| + (r.echec.value - i)
    ensures i < count && draws[i] < |cases| ==>
      |e.singes| < |r.ile.singes| && r.ile.singes[|e.singes|] == cases[draws[i]]
    decreases count - i
  {
    if i >= count then Ajout(e, None)
    else if draws[i] >= |cases| then Ajout(e, Some(i))
    else
      var c := cases[draws[i]];
      var e' := e.(singes := e.singes + [c], journal := e.journal + [SingeCree(i, c.x, c.y)]);
      var suite := AjoutDepuis(e', Retirer(cases, draws[i]), draws, i + 1, count);
      AppendedStep(e, e', suite.ile, cases, draws[i], i);
      suite
  }

  /** One placement step followed by the rest of the loop. */
  ghost predicate StepThen(e: Etat, e': Etat, cases: seq<Pos>, k: nat, id: int)
    requires k < |cases|
  {
    e' == e.(singes := e.singes + [cases[k]], journal := e.journal + [SingeCree(id, cases[k].x, cases[k].y)])
  }

  lemma AppendsOnlyStep(e: Etat, e': Etat, r: Etat, cases: seq<Pos>, k: nat, id: int)
    requires k < |cases| && StepThen(e, e', cases, k, id)
    requires AppendsOnly(e', r)
    ensures AppendsOnly(e, r)
    ensures r.singes[|e.singes|] == cases[k]
    ensures r.journal[|e.journal|] == SingeCree(id, cases[k].x, cases[k].y)
  {
    var n0 := |e.singes|;
    var j0 := |e.journal|;
    assert r.singes[..n0 + 1][..n0] == r.singes[..n0];
    assert r.journal[..j0 + 1][..j0] == r.journal[..j0];
    assert r.singes[n0] == r.singes[..n0 + 1][n0];
    assert r.journal[j0] == r.journal[..j0 + 1][j0];
  }

  lemma DrawnFromStep(e: Etat, e': Etat, r: Etat, cases: seq<Pos>, k: nat, id: int)
    requires k < |cases| && StepThen(e, e', cases, k, id)
    requires |e'.singes| <= |r.singes| && r.singes[|e.singes|] == cases[k]
    requires DrawnFrom(e', r, Retirer(cases, k))
    ensures DrawnFrom(e, r, cases)
  {
    var n0 := |e.singes|;
    var reste := Retirer(cases, k);
    assert |e'.singes| == n0 + 1;
    forall j | n0 <= j < |r.singes| ensures r.singes[j] in cases {
      if n0 < j {
        assert r.singes[j] in reste;
      }
    }
    if Distinct(cases) {
      var s := r.singes[n0..];
      var t := r.singes[n0 + 1..];
      assert Distinct(t) && cases[k] !in reste;
      forall a, b | 0 <= a < b < |s| ensures s[a] != s[b] {
        assert s[b] == t[b - 1] && t[b - 1] in reste;
        if 0 < a {
          assert s[a] == t[a - 1];
        }
      }
    }
  }

  lemma AnnouncedFromStep(e: Etat, e': Etat, r: Etat, cases: seq<Pos>, k: nat, id: int)
    requires k < |cases| && StepThen(e, e', cases, k, id)
    requires AppendsOnly(e', r) && AppendsOnly(e, r)
    requires r.singes[|e.singes|] == cases[k]
    requires r.journal[|e.journal|] == SingeCree(id, cases[k].x, cases[k].y)
    requires AnnouncedFrom(e', r, id + 1)
    ensures AnnouncedFrom(e, r, id)
  {
  }

  lemma AppendedStep(e: Etat, e': Etat, r: Etat, cases: seq<Pos>, k: nat, id: int)
    requires k < |cases| && StepThen(e, e', cases, k, id)
    requires Appended(e', r, Retirer(cases, k), id + 1)
    ensures Appended(e, r, cases, id)
    ensures |e.singes| < |r.singes| && r.singes[|e.singes|] == cases[k]
  {
    AppendsOnlyStep(e, e', r, cases, k, id);
    DrawnFromStep(e, e', r, cases, k, id);
    AnnouncedFromStep(e, e', r, cases, k, id);
  }

  /** Adds monkeys on random land cells, as the source does: the candidates are all
      land cells (occupied or not), the count is clamped, the index of each draw is
      taken in [0, size] inclusive, and the creation event carries the loop counter. */
  function AjoutSingesErratiques(e: Etat, n: int, draws: seq<nat>): (r: Ajout)
    requires Valid(e.carte)
    requires NombreSinges(n, |LandCells(e.carte)|) <= |draws|
    ensures Appended(e, r.ile, LandCells(e.carte), 0)
    ensures forall k :: |e.singes| <= k < |r.ile.singes| ==> IsLandCell(e.carte, r.ile.singes[k])
    ensures Distinct(r.ile.singes[|e.singes|..])
    ensures var c := NombreSinges(n, |LandCells(e.carte)|);
      r.echec.None? ==> |r.ile.singes| == |e.singes| + (if c > 0 then c else 0)
    ensures 0 < NombreSinges(n, |LandCells(e.carte)|) && draws[0] < |LandCells(e.carte)| ==>
      |e.singes| < |r.ile.singes| && r.ile.singes[|e.singes|] == LandCells(e.carte)[draws[0]]
  {
    LandCellsSpec(e.carte);
    AjoutDepuis(e, LandCells(e.carte), draws, 0, NombreSinges(n, |LandCells(e.carte)|))
  }

  lemma {:induction false} AjoutDepuisSucceedsIff(e: Etat, cases: seq<Pos>, draws: seq<nat>, i: nat, count: int)
    requires count <= |draws|
    requires count - i <= |cases|
    ensures AjoutDepuis(e, cases, draws, i, count).echec.None? <==>
      forall k :: i <= k < count ==> draws[k] < |cases| - (k - i)
    decreases count - i
  {
    if i < count && draws[i] < |cases| {
      var c := cases[draws[i]];
      var e' := e.(singes := e.singes + [c], journal := e.journal + [SingeCree(i, c.x, c.y)]);
      AjoutDepuisSucceedsIff(e', Retirer(cases, draws[i]), draws, i + 1, count);
    }
  }

  /** The placement call completes exactly when every draw is below the size of the
      candidate list at its iteration; a draw equal to that size (which the source's
      generator can produce) makes the call fail. */
  lemma AjoutSucceedsIff(e: Etat, n: int, draws: seq<nat>)
    requires Valid(e.carte)
    requires NombreSinges(n, |LandCells(e.carte)|) <= |draws|
    ensures AjoutSingesErratiques(e, n, draws).echec.None? <==>
      forall k :: 0 <= k < NombreSinges(n, |LandCells(e.carte)|) ==> draws[k] < |LandCells(e.carte)| - k
  {
    AjoutDepuisSucceedsIff(e, LandCells(e.carte), draws, 0, NombreSinges(n, |LandCells(e.carte)|));
  }

  /** A first draw equal to the number of land cells, the top of the source's draw
      range, interrupts the call before any monkey is added. */
  lemma TopDrawFails(e: Etat, n: int, draws: seq<nat>)
    requires Valid(e.carte)
    requires 0 < NombreSinges(n, |LandCells(e.carte)|) <= |draws|
    requires draws[0] == |LandCells(e.carte)|
    ensures AjoutSingesErratiques(e, n, draws) == Ajout(e, Some(0))
  {
  }

  /** Iterations `i .. count - 1` of the placement loop as evidently intended: the
      index is drawn in [0, size) and the event id is the monkey's collection index. */
  function AjoutDepuisCorrige(e: Etat, cases: seq<Pos>, draws: seq<nat>, i: nat, count: int): (r: Etat)
    requires count <= |draws|
    requires forall k :: i <= k < count ==> draws[k] < |cases| - (k - i)
    ensures Appended(e, r, cases, |e.singes|)
    ensures |r.singes| == |e.singes| + (if count > i then count - i else 0)
    decreases count - i
  {
    if i >= count then e
    else
      var c := cases[draws[i]];
      var e' := e.(singes := e.singes + [c], journal := e.journal + [SingeCree(|e.singes|, c.x, c.y)]);
      var suite := AjoutDepuisCorrige(e', Retirer(cases, draws[i]), draws, i + 1, count);
      AppendedStep(e, e', suite, cases, draws[i], |e.singes|);
      suite
  }

  /** Draws acceptable for the corrected placement: at iteration k, below the size of
      the candidate list, which has lost k cells by then. */
  predicate DrawsInRange(e: Etat, n: int, draws: seq<nat>)
    requires Valid(e.carte)
  {
    && NombreSinges(n, |LandCells(e.carte)|) <= |draws|
    && forall k :: 0 <= k < NombreSinges(n, |LandCells(e.carte)|) ==> draws[k] < |LandCells(e.carte)| - k
  }

  /** The placement as evidently intended: it always completes, adds the clamped
      number of monkeys on pairwise distinct land cells, and announces each monkey
      with its index in the collection. */
  function AjoutSingesErratiquesCorrige(e: Etat, n: int, draws: seq<nat>): (r: Etat)
    requires Valid(e.carte) && DrawsInRange(e, n, draws)
    ensures Appended(e, r, LandCells(e.carte), |e.singes|)
    ensures forall k :: |e.singes| <= k < |r.singes| ==> IsLandCell(e.carte, r.singes[k])
    ensures Distinct(r.singes[|e.singes|..])
    ensures forall k :: |e.singes| <= k < |r.singes| ==>
      r.journal[|e.journal| + (k - |e.singes|)] == SingeCree(k, r.singes[k].x, r.singes[k].y)
    ensures var c := NombreSinges(n, |LandCells(e.carte)|);
      |r.singes| == |e.singes| + (if c > 0 then c else 0)
  {
    var r := AjoutDepuisCorrige(e, LandCells(e.carte), draws, 0, NombreSinges(n, |LandCells(e.carte)|));
    SurCasesTerre(e, r, |e.singes|);
    r
  }

  /** Monkeys drawn from the land-cell list stand on land, on pairwise distinct cells. */
  lemma SurCasesTerre(e: Etat, r: Etat, base: int)
    requires Valid(e.carte) && Appended(e, r, LandCells(e.carte), base)
    ensures forall k :: |e.singes| <= k < |r.singes| ==> IsLandCell(e.carte, r.singes[k])
    ensures Distinct(r.singes[|e.singes|..])
  {
    LandCellsSpec(e.carte);
  }

  /** The corrected loop's first new monkey stands on the candidate its draw selects. */
  lemma PremierTirageCorrige(e: Etat, cases: seq<Pos>, draws: seq<nat>, i: nat, count: int)
    requires count <= |draws|
    requires forall k :: i <= k < count ==> draws[k] < |cases| - (k - i)
    ensures i < count ==> var r := AjoutDepuisCorrige(e, cases, draws, i, count);
      |e.singes| < |r.singes| && r.singes[|e.singes|] == cases[draws[i]]
  {
    if i < count {
      var c := cases[draws[i]];
      var e' := e.(singes := e.singes + [c], journal := e.journal + [SingeCree(|e.singes|, c.x, c.y)]);
      var suite := AjoutDepuisCorrige(e', Retirer(cases, draws[i]), draws, i + 1, count);
      assert AjoutDepuisCorrige(e, cases, draws, i, count) == suite;
      AppendsOnlyStep(e, e', suite, cases, draws[i], |e.singes|);
    }
  }

  /** The corrected call's first new monkey stands on the land cell of index
      `draws[0]` in the land-cell list. */
  lemma PremierSingeCorrige(e: Etat, n: int, draws: seq<nat>)
    requires Valid(e.carte) && DrawsInRange(e, n, draws)
    requires 0 < NombreSinges(n, |LandCells(e.carte)|)
    ensures var r := AjoutSingesErratiquesCorrige(e, n, draws);
      |e.singes| < |r.singes| && r.singes[|e.singes|] == LandCells(e.carte)[draws[0]]
  {
    PremierTirageCorrige(e, LandCells(e.carte), draws, 0, NombreSinges(n, |LandCells(e.carte)|));
  }

  lemma {:induction false} AjoutDepuisAgrees(e: Etat, cases: seq<Pos>, draws: seq<nat>, i: nat, count: int)
    requires count <= |draws| && |e.singes| == i
    requires forall k :: i <= k < count ==> draws[k] < |cases| - (k - i)
    ensures AjoutDepuis(e, cases, draws, i, count) == Ajout(AjoutDepuisCorrige(e, cases, draws, i, count), None)
    decreases count - i
  {
    if i < count {
      var c := cases[draws[i]];
      var e' := e.(singes := e.singes + [c], journal := e.journal + [SingeCree(i, c.x, c.y)]);
      AjoutDepuisAgrees(e', Retirer(cases, draws[i]), draws, i + 1, count);
    }
  }

  /** On a band with no monkey yet and with in-range draws, the call as written and
      the corrected one agree: the loop counter is then the collection index. */
  lemma FirstCallAgrees(e: Etat, n: int, draws: seq<nat>)
    requires Valid(e.carte) && DrawsInRange(e, n, draws) && |e.singes| == 0
    ensures AjoutSingesErratiques(e, n, draws) == Ajout(AjoutSingesErratiquesCorrige(e, n, draws), None)
  {
    AjoutDepuisAgrees(e, LandCells(e.carte), draws, 0, NombreSinges(n, |LandCells(e.carte)|));
  }

  /** The call as written completes and its first new monkey stands on `c`. */
  ghost predicate PremierSinge(e: Etat, n: int, draws: seq<nat>, c: Pos)
    requires Valid(e.carte) && NombreSinges(n, |LandCells(e.carte)|) <= |draws|
  {
    var a := AjoutSingesErratiques(e, n, draws);
    a.echec.None? && |e.singes| < |a.ile.singes| && a.ile.singes[|e.singes|] == c
  }

  /** Every land cell can receive the first new monkey: some in-range draws, with
      which the call as written completes, put it there. */
  lemma EveryLandCellPlaceable(e: Etat, n: int, c: Pos)
    requires Valid(e.carte) && IsLandCell(e.carte, c)
    requires 0 < NombreSinges(n, |LandCells(e.carte)|)
    ensures exists draws: seq<nat> :: DrawsInRange(e, n, draws) && PremierSinge(e, n, draws, c)
  {
    var cases := LandCells(e.carte);
    var count := NombreSinges(n, |cases|);
    LandCellsSpec(e.carte);
    var idx :| 0 <= idx < |cases| && cases[idx] == c;
    var draws: seq<nat> := [idx] + seq(count - 1, _ => 0);
    assert DrawsInRange(e, n, draws);
    AjoutSucceedsIff(e, n, draws);
    assert PremierSinge(e, n, draws, c);
  }

  /** A second call as written on a one-row map of three land cells: the new monkey
      is announced with id 0 although it sits at index 1, on the very cell of the
      monkey already there. */
  lemma SecondCallReusesIdAndCell()
    ensures var e := Initiale.(carte := [[TERRE, TERRE, TERRE]], singes := [Pos(0, 0)]);
      var r := AjoutSingesErratiques(e, 1, [0]);
      && r.echec.None?
      && r.ile.singes == [Pos(0, 0), Pos(0, 0)]
      && r.ile.journal == [SingeCree(0, 0, 0)]
  {
    LandCellsOfOneRow();
  }

  /** The corrected call on the same band announces the new monkey with its index. */
  lemma SecondCallCorrigeUsesIndex()
    ensures var e := Initiale.(carte := [[TERRE, TERRE, TERRE]], singes := [Pos(0, 0)]);
      AjoutSingesErratiquesCorrige(e, 1, [0]).journal == [SingeCree(1, 0, 0)]
  {
    LandCellsOfOneRow();
  }

  // ---------------------------------------------------------------------------
  // One tick of the movement loop

  /** Every neighbour of `p` can be submitted to the land test without failing. */
  predicate VoisinageSur(m: Grille, p: Pos)
    requires Valid(m)
  {
    && Indexable(m, Voisin(p, Haut)) && Indexable(m, Voisin(p, Bas))
    && Indexable(m, Voisin(p, Droite)) && Indexable(m, Voisin(p, Gauche))
  }

  /** Some neighbour of `p` is land with no monkey of `singes` on it. */
  ghost predicate PeutBouger(m: Grille, singes: seq<Pos>, p: Pos) {
    exists d: Dir :: IsLandCell(m, Voisin(p, d)) && Voisin(p, d) !in singes
  }

  /** The step monkey `k` of a band standing on `etat` may take to `q`: it moves iff
      some neighbour is free land, and then onto such a neighbour; otherwise it stays. */
  ghost predicate PasAdmis(m: Grille, etat: seq<Pos>, k: nat, q: Pos)
    requires k < |etat|
  {
    && (q != etat[k] <==> PeutBouger(m, etat, etat[k]))
    && (q != etat[k] ==> Adjacent(etat[k], q) && IsLandCell(m, q) && q !in etat)
  }

  /** Monkey `i` takes its step against the current state, then its move is announced
      with its index and new coordinates. */
  function DeplacerUn(e: Etat, i: nat, order: seq<Dir>): (r: Etat)
    requires Valid(e.carte) && i < |e.singes| && IsOrdering(order)
    requires VoisinageSur(e.carte, e.singes[i])
    ensures |r.singes| == |e.singes|
    ensures forall k :: 0 <= k < |e.singes| && k != i ==> r.singes[k] == e.singes[k]
    ensures r.singes[i] != e.singes[i] <==> PeutBouger(e.carte, e.singes, e.singes[i])
    ensures r.singes[i] == e.singes[i]
      || (Adjacent(e.singes[i], r.singes[i]) && IsLandCell(e.carte, r.singes[i]) && r.singes[i] !in e.singes)
    ensures r.carte == e.carte && r.tresor == e.tresor
    ensures r.pirate.avatar == e.pirate.avatar && r.pirate.position == e.pirate.position
    ensures r.pirate.attaques == e.pirate.attaques + (if r.singes[i] != e.singes[i] then [i] else [])
    ensures r.journal == e.journal + [SingeDeplace(i, r.singes[i].x, r.singes[i].y)]
  {
    var pas := PasDuSinge(e, i, order);
    e.(singes := e.singes[i := pas.position],
       pirate := if pas.tuePirate then e.pirate.(attaques := e.pirate.attaques + [i]) else e.pirate,
       journal := e.journal + [SingeDeplace(i, pas.position.x, pas.position.y)])
  }

  /** The step of monkey `i`, asked against the island's admission test. */
  function PasDuSinge(e: Etat, i: nat, order: seq<Dir>): (r: Pas)
    requires Valid(e.carte) && i < |e.singes| && IsOrdering(order)
    requires VoisinageSur(e.carte, e.singes[i])
    ensures r.tuePirate <==> PeutBouger(e.carte, e.singes, e.singes[i])
    ensures r.tuePirate ==> Adjacent(e.singes[i], r.position) && IsLandCell(e.carte, r.position) && r.position !in e.singes
    ensures r.tuePirate <==> r.position != e.singes[i]
    ensures !r.tuePirate ==> r.position == e.singes[i]
  {
    AdmissionVoisins(e, e.singes[i]);
    DeplacerSinge(e.singes[i], order, Admission(e))
  }

  /** On the four neighbours of `p`, the admission oracle is defined and is the
      island's test: land and no monkey. */
  lemma AdmissionVoisins(e: Etat, p: Pos)
    requires Valid(e.carte) && VoisinageSur(e.carte, p)
    ensures OracleDefined(p, Admission(e))
    ensures forall d: Dir :: Admission(e)(Voisin(p, d)) <==> IsLandCell(e.carte, Voisin(p, d)) && Voisin(p, d) !in e.singes
  {
  }

  /** Monkey `i`'s step is the one the band at its turn admits. */
  lemma DeplacerUnPas(e: Etat, i: nat, order: seq<Dir>)
    requires Valid(e.carte) && i < |e.singes| && IsOrdering(order)
    requires VoisinageSur(e.carte, e.singes[i])
    ensures PasAdmis(e.carte, e.singes, i, DeplacerUn(e, i, order).singes[i])
  {
  }

  /** A neighbour a monkey may step onto: land with no monkey on it. */
  ghost predicate Libre(e: Etat, q: Pos) {
    IsLandCell(e.carte, q) && q !in e.singes
  }

  /** The draw decides the step: a monkey that moves takes the first neighbour of its
      direction order that is free land. */
  lemma DeplacerUnPremierLibre(e: Etat, i: nat, order: seq<Dir>)
    requires Valid(e.carte) && i < |e.singes| && IsOrdering(order)
    requires VoisinageSur(e.carte, e.singes[i])
    ensures var q := DeplacerUn(e, i, order).singes[i];
      q != e.singes[i] ==> exists j :: (0 <= j < |order| && q == Voisin(e.singes[i], order[j])
        && forall l :: 0 <= l < j ==> !Libre(e, Voisin(e.singes[i], order[l])))
  {
    var p := e.singes[i];
    AdmissionVoisins(e, p);
    var s := GetNextRandomPos(p, order, Admission(e));
    if s.choix.Some? {
      var j := |s.demandes| - 1;
      assert s.demandes == order[..j + 1];
      assert DeplacerUn(e, i, order).singes[i] == Voisin(p, order[j]);
      forall l | 0 <= l < j ensures !Libre(e, Voisin(p, order[l])) {
        assert s.demandes[l] == order[l];
      }
    }
  }

  /** Every free neighbour is the monkey's step for some draw: the choice ranges over
      all free neighbours. */
  lemma EveryFreeNeighbourReachable(e: Etat, i: nat, d: Dir)
    requires Valid(e.carte) && i < |e.singes| && VoisinageSur(e.carte, e.singes[i])
    requires Libre(e, Voisin(e.singes[i], d))
    ensures exists order :: IsOrdering(order) && DeplacerUn(e, i, order).singes[i] == Voisin(e.singes[i], d)
  {
    AdmissionVoisins(e, e.singes[i]);
    EveryAcceptedReachable(e.singes[i], Admission(e), d);
    var order :| IsOrdering(order) && DeplacerSinge(e.singes[i], order, Admission(e)) == Pas(Voisin(e.singes[i], d), true);
    assert PasDuSinge(e, i, order).position == Voisin(e.singes[i], d);
  }

  /** The state a tick starts from: every monkey not yet moved can take its step. */
  predicate TickPret(e: Etat, orders: seq<seq<Dir>>, i: nat)
    requires Valid(e.carte)
  {
    && i <= |e.singes| && |orders| == |e.singes|
    && (forall k :: i <= k < |orders| ==> IsOrdering(orders[k]))
    && (forall k :: i <= k < |e.singes| ==> VoisinageSur(e.carte, e.singes[k]))
  }

  /** The indices from `i` on at which `apres` differs from `avant`, in increasing
      order: the monkeys that moved. */
  function Bouges(avant: seq<Pos>, apres: seq<Pos>, i: nat): seq<nat>
    requires i <= |avant| == |apres|
    decreases |avant| - i
  {
    if i == |avant| then []
    else (if apres[i] != avant[i] then [i] else []) + Bouges(avant, apres, i + 1)
  }

  /** The list holds exactly the indices from `i` on where the band changed, each once,
      in increasing order. */
  lemma {:induction false} BougesSpec(avant: seq<Pos>, apres: seq<Pos>, i: nat)
    requires i <= |avant| == |apres|
    ensures forall k :: k in Bouges(avant, apres, i) <==> i <= k < |avant| && apres[k] != avant[k]
    ensures forall a, b :: 0 <= a < b < |Bouges(avant, apres, i)| ==> Bouges(avant, apres, i)[a] < Bouges(avant, apres, i)[b]
    decreases |avant| - i
  {
    if i < |avant| {
      BougesSpec(avant, apres, i + 1);
      var reste := Bouges(avant, apres, i + 1);
      var s := Bouges(avant, apres, i);
      assert s == (if apres[i] != avant[i] then [i] else []) + reste;
      forall a, b | 0 <= a < b < |s| ensures s[a] < s[b] {
        if apres[i] != avant[i] && a == 0 {
          assert s[b] == reste[b - 1] && s[b] in reste;
        } else if apres[i] != avant[i] {
          assert s[a] == reste[a - 1] && s[b] == reste[b - 1];
        } else {
          assert s[a] == reste[a] && s[b] == reste[b];
        }
      }
    }
  }

  lemma {:induction false} BougesAgree(avant: seq<Pos>, milieu: seq<Pos>, apres: seq<Pos>, i: nat)
    requires i <= |avant| == |milieu| == |apres|
    requires forall k :: i <= k < |avant| ==> milieu[k] == avant[k]
    ensures Bouges(avant, apres, i) == Bouges(milieu, apres, i)
    decreases |avant| - i
  {
    if i < |avant| {
      BougesAgree(avant, milieu, apres, i + 1);
    }
  }

  /** The positions of the band when monkey `k` takes its turn: monkeys before `k`
      already where the tick leaves them, the others where the tick found them. */
  function AuTour(avant: seq<Pos>, apres: seq<Pos>, k: nat): (t: seq<Pos>)
    requires k <= |avant| == |apres|
    ensures |t| == |avant|
    ensures forall j :: 0 <= j < |t| ==> t[j] == if j < k then apres[j] else avant[j]
  {
    apres[..k] + avant[k..]
  }

  /** Monkey `i` stepped from the band `e` to `e'`, and the rest of the tick then
      led to `r`: every monkey from `i` on took its step against the band at its turn. */
  lemma TourStep(m: Grille, e: seq<Pos>, e': seq<Pos>, r: seq<Pos>, i: nat)
    requires i < |e| == |e'| == |r|
    requires forall k :: 0 <= k < |e| && k != i ==> e'[k] == e[k]
    requires forall k :: 0 <= k <= i ==> r[k] == e'[k]
    requires PasAdmis(m, e, i, e'[i])
    requires forall k {:trigger AuTour(e', r, k)} :: i + 1 <= k < |e| ==> PasAdmis(m, AuTour(e', r, k), k, r[k])
    ensures forall k {:trigger AuTour(e, r, k)} :: i <= k < |e| ==> PasAdmis(m, AuTour(e, r, k), k, r[k])
  {
    assert AuTour(e, r, i) == e;
    forall k | i + 1 <= k < |e| ensures PasAdmis(m, AuTour(e, r, k), k, r[k]) {
      assert AuTour(e, r, k) == AuTour(e', r, k);
    }
  }

  /** Monkeys `i .. size - 1` of one tick. */
  function DeplacerDepuis(e: Etat, orders: seq<seq<Dir>>, i: nat): (r: Etat)
    requires Valid(e.carte) && TickPret(e, orders, i)
    ensures |r.singes| == |e.singes|
    ensures r.carte == e.carte && r.tresor == e.tresor
    ensures r.pirate.avatar == e.pirate.avatar && r.pirate.position == e.pirate.position
    ensures r.pirate.attaques == e.pirate.attaques + Bouges(e.singes, r.singes, i)
    ensures forall k :: 0 <= k < i ==> r.singes[k] == e.singes[k]
    ensures forall k :: i <= k < |e.singes| ==> r.singes[k] == e.singes[k] || Adjacent(e.singes[k], r.singes[k])
    ensures forall k {:trigger AuTour(e.singes, r.singes, k)} :: i <= k < |e.singes| ==> PasAdmis(e.carte, AuTour(e.singes, r.singes, k), k, r.singes[k])
    ensures Distinct(e.singes) ==> Distinct(r.singes)
    ensures SurTerre(e) ==> SurTerre(r)
    decreases |e.singes| - i
  {
    if i == |e.singes| then e
    else
      var e' := DeplacerUn(e, i, orders[i]);
      DeplacerUnPas(e, i, orders[i]);
      DeplacerUnKeepsDistinct(e, i, orders[i]);
      DeplacerUnKeepsLand(e, i, orders[i]);
      TickPretStep(e, orders, i);
      var r := DeplacerDepuis(e', orders, i + 1);
      DeplacerDepuisStep(e, e', r, i);
      r
  }

  /** The induction step of a tick: monkey `i` moved the band from `e` to `e'`, the
      rest of the tick then led to `r`; the facts about `e'` and `r` give those about
      `e` and `r`. */
  lemma DeplacerDepuisStep(e: Etat, e': Etat, r: Etat, i: nat)
    requires i < |e.singes| == |e'.singes| == |r.singes|
    requires forall k :: 0 <= k < |e.singes| && k != i ==> e'.singes[k] == e.singes[k]
    requires PasAdmis(e.carte, e.singes, i, e'.singes[i])
    requires e'.singes[i] == e.singes[i] || Adjacent(e.singes[i], e'.singes[i])
    requires e'.carte == e.carte && e'.tresor == e.tresor
    requires e'.pirate.avatar == e.pirate.avatar && e'.pirate.position == e.pirate.position
    requires e'.pirate.attaques == e.pirate.attaques + (if e'.singes[i] != e.singes[i] then [i] else [])
    requires r.carte == e'.carte && r.tresor == e'.tresor
    requires r.pirate.avatar == e'.pirate.avatar && r.pirate.position == e'.pirate.position
    requires r.pirate.attaques == e'.pirate.attaques + Bouges(e'.singes, r.singes, i + 1)
    requires forall k :: 0 <= k < i + 1 ==> r.singes[k] == e'.singes[k]
    requires forall k :: i + 1 <= k < |e'.singes| ==> r.singes[k] == e'.singes[k] || Adjacent(e'.singes[k], r.singes[k])
    requires forall k {:trigger AuTour(e'.singes, r.singes, k)} :: i + 1 <= k < |e'.singes| ==> PasAdmis(e'.carte, AuTour(e'.singes, r.singes, k), k, r.singes[k])
    ensures r.carte == e.carte && r.tresor == e.tresor
    ensures r.pirate.avatar == e.pirate.avatar && r.pirate.position == e.pirate.position
    ensures r.pirate.attaques == e.pirate.attaques + Bouges(e.singes, r.singes, i)
    ensures forall k :: 0 <= k < i ==> r.singes[k] == e.singes[k]
    ensures forall k :: i <= k < |e.singes| ==> r.singes[k] == e.singes[k] || Adjacent(e.singes[k], r.singes[k])
    ensures forall k {:trigger AuTour(e.singes, r.singes, k)} :: i <= k < |e.singes| ==> PasAdmis(e.carte, AuTour(e.singes, r.singes, k), k, r.singes[k])
  {
    AttaquesStep(e.pirate.attaques, e'.pirate.attaques, r.pirate.attaques, e.singes, e'.singes, r.singes, i);
    TourStep(e.carte, e.singes, e'.singes, r.singes, i);
    forall k | i <= k < |e.singes| ensures r.singes[k] == e.singes[k] || Adjacent(e.singes[k], r.singes[k]) {
      if k > i {
        assert e'.singes[k] == e.singes[k];
      }
    }
  }

  /** The kill calls of monkey `i` followed by those of the monkeys after it. */
  lemma AttaquesStep(a: seq<nat>, a': seq<nat>, a'': seq<nat>, avant: seq<Pos>, milieu: seq<Pos>, apres: seq<Pos>, i: nat)
    requires i < |avant| == |milieu| == |apres|
    requires forall k :: i < k < |avant| ==> milieu[k] == avant[k]
    requires apres[i] == milieu[i]
    requires a' == a + (if milieu[i] != avant[i] then [i] else [])
    requires a'' == a' + Bouges(milieu, apres, i + 1)
    ensures a'' == a + Bouges(avant, apres, i)
  {
    BougesAgree(avant, milieu, apres, i + 1);
    var x: seq<nat> := if milieu[i] != avant[i] then [i] else [];
    var b := Bouges(avant, apres, i + 1);
    assert Bouges(avant, apres, i) == x + b;
    assert a'' == (a + x) + b;
  }

  /** Monkey k's move is announced by the k-th notification of the tick, with k and the
      coordinates it ends the tick on. */
  ghost predicate TickAnnounced(e: Etat, r: Etat, i: nat)
    requires i <= |e.singes| <= |r.singes|
  {
    && |r.journal| == |e.journal| + (|e.singes| - i)
    && r.journal[..|e.journal|] == e.journal
    && forall k :: i <= k < |e.singes| ==>
         r.journal[|e.journal| + (k - i)] == SingeDeplace(k, r.singes[k].x, r.singes[k].y)
  }

  lemma {:induction false} DeplacerDepuisAnnounces(e: Etat, orders: seq<seq<Dir>>, i: nat)
    requires Valid(e.carte) && TickPret(e, orders, i)
    ensures TickAnnounced(e, DeplacerDepuis(e, orders, i), i)
    decreases |e.singes| - i
  {
    if i < |e.singes| {
      var e' := DeplacerUn(e, i, orders[i]);
      var r := DeplacerDepuis(e', orders, i + 1);
      DeplacerDepuisAnnounces(e', orders, i + 1);
      AnnouncedStep(e, e', r, i);
    }
  }

  lemma AnnouncedStep(e: Etat, e': Etat, r: Etat, i: nat)
    requires i < |e.singes| == |e'.singes| <= |r.singes|
    requires e'.journal == e.journal + [SingeDeplace(i, e'.singes[i].x, e'.singes[i].y)]
    requires r.singes[i] == e'.singes[i]
    requires TickAnnounced(e', r, i + 1)
    ensures TickAnnounced(e, r, i)
  {
    var j0 := |e.journal|;
    assert r.journal[..j0 + 1][..j0] == r.journal[..j0];
    assert r.journal[j0] == r.journal[..j0 + 1][j0];
    forall k | i < k < |e.singes|
      ensures r.journal[j0 + (k - i)] == SingeDeplace(k, r.singes[k].x, r.singes[k].y)
    {
      assert |e'.journal| + (k - (i + 1)) == j0 + (k - i);
    }
  }

  /** After monkey `i` steps, the monkeys after it can still take theirs. */
  lemma TickPretStep(e: Etat, orders: seq<seq<Dir>>, i: nat)
    requires Valid(e.carte) && TickPret(e, orders, i) && i < |e.singes|
    ensures TickPret(DeplacerUn(e, i, orders[i]), orders, i + 1)
  {
    var e' := DeplacerUn(e, i, orders[i]);
    forall k | i + 1 <= k < |e'.singes| ensures VoisinageSur(e'.carte, e'.singes[k]) {
      assert e'.singes[k] == e.singes[k];
    }
  }

  /** One monkey step keeps the monkeys on distinct cells. */
  lemma DeplacerUnKeepsDistinct(e: Etat, i: nat, order: seq<Dir>)
    requires Valid(e.carte) && i < |e.singes| && IsOrdering(order)
    requires VoisinageSur(e.carte, e.singes[i])
    ensures Distinct(e.singes) ==> Distinct(DeplacerUn(e, i, order).singes)
  {
    var e' := DeplacerUn(e, i, order);
    if Distinct(e.singes) {
      forall a, b | 0 <= a < b < |e'.singes| ensures e'.singes[a] != e'.singes[b] {
        if a != i && b != i {
          assert e'.singes[a] == e.singes[a] && e'.singes[b] == e.singes[b];
        } else if a == i {
          assert e'.singes[b] == e.singes[b];
        } else {
          assert e'.singes[a] == e.singes[a];
        }
      }
    }
  }

  /** One monkey step keeps every monkey on land. */
  lemma DeplacerUnKeepsLand(e: Etat, i: nat, order: seq<Dir>)
    requires Valid(e.carte) && i < |e.singes| && IsOrdering(order)
    requires VoisinageSur(e.carte, e.singes[i])
    ensures SurTerre(e) ==> SurTerre(DeplacerUn(e, i, order))
  {
    var e' := DeplacerUn(e, i, order);
    if SurTerre(e) {
      forall k | 0 <= k < |e'.singes| ensures IsLandCell(e'.carte, e'.singes[k]) {
        if k != i {
          assert e'.singes[k] == e.singes[k];
        }
      }
    }
  }

  /** Every monkey stands on a land cell. */
  predicate SurTerre(e: Etat) {
    forall k :: 0 <= k < |e.singes| ==> IsLandCell(e.carte, e.singes[k])
  }

  /** One iteration of the band's loop: monkeys 0 .. size - 1 move in index order,
      each against the state its predecessors left, and each move is announced right
      after it with the monkey's new coordinates. Monkeys keep distinct cells and stay
      on land. */
  function Tick(e: Etat, orders: seq<seq<Dir>>): (r: Etat)
    requires Valid(e.carte) && TickPret(e, orders, 0)
    ensures |r.singes| == |e.singes|
    ensures r.carte == e.carte && r.tresor == e.tresor
    ensures r.pirate.avatar == e.pirate.avatar && r.pirate.position == e.pirate.position
    ensures r.pirate.attaques == e.pirate.attaques + Bouges(e.singes, r.singes, 0)
    ensures forall k {:trigger AuTour(e.singes, r.singes, k)} :: 0 <= k < |e.singes| ==> PasAdmis(e.carte, AuTour(e.singes, r.singes, k), k, r.singes[k])
    ensures forall k :: 0 <= k < |e.singes| ==> r.singes[k] == e.singes[k] || Adjacent(e.singes[k], r.singes[k])
    ensures |r.journal| == |e.journal| + |e.singes| && r.journal[..|e.journal|] == e.journal
    ensures forall k :: 0 <= k < |e.singes| ==>
      r.journal[|e.journal| + k] == SingeDeplace(k, r.singes[k].x, r.singes[k].y)
    ensures Distinct(e.singes) ==> Distinct(r.singes)
    ensures SurTerre(e) ==> SurTerre(r)
  {
    DeplacerDepuisAnnounces(e, orders, 0);
    var r := DeplacerDepuis(e, orders, 0);
    TickFromStart(e, r);
    r
  }

  /** The facts about a tick run from monkey 0 on, in the form stated for `Tick`. */
  lemma TickFromStart(e: Etat, r: Etat)
    requires |r.singes| == |e.singes|
    requires TickAnnounced(e, r, 0)
    requires forall k :: 0 <= k < |e.singes| ==> r.singes[k] == e.singes[k] || Adjacent(e.singes[k], r.singes[k])
    ensures |r.journal| == |e.journal| + |e.singes| && r.journal[..|e.journal|] == e.journal
    ensures forall k :: 0 <= k < |e.singes| ==>
      r.journal[|e.journal| + k] == SingeDeplace(k, r.singes[k].x, r.singes[k].y)
  {
    forall k | 0 <= k < |e.singes| ensures r.journal[|e.journal| + k] == SingeDeplace(k, r.singes[k].x, r.singes[k].y) {
      assert |e.journal| + (k - 0) == |e.journal| + k;
    }
  }

  /** No land cell on row 0 or column 0: a monkey on land then never submits a
      negative coordinate to the land test. */
  ghost predicate SansTerreBasse(m: Grille) {
    forall c :: IsLandCell(m, c) ==> c.x >= 1 && c.y >= 1
  }

  /** On such a map, a band standing on land can always take its next tick, and a
      tick leaves it on land again, so the loop can run forever. */
  lemma TickRepeatable(e: Etat, orders: seq<seq<Dir>>)
    requires Valid(e.carte) && SurTerre(e) && SansTerreBasse(e.carte)
    requires |orders| == |e.singes| && forall k :: 0 <= k < |orders| ==> IsOrdering(orders[k])
    ensures TickPret(e, orders, 0)
    ensures SurTerre(Tick(e, orders))
  {
    forall k | 0 <= k < |e.singes| ensures VoisinageSur(e.carte, e.singes[k]) {
      assert IsLandCell(e.carte, e.singes[k]);
    }
  }
}

=== FILE: carte.dfy ===
/** The land/sea matrix of the island and the list of its land cells.
    A map is indexed `carte[x][y]`: `x` ranges over the rows (the map's width),
    `y` over the cells of a row (its length). Value 1 is land, 0 is sea. */
module Carte {

  /** A cell coordinate; it may lie outside the map. */
  datatype Pos = Pos(x: int, y: int)

  type Grille = seq<seq<int>>

  const MER: int := 0
  const TERRE: int := 1

  /** A map the island can work with: at least one row, every row as long as row 0.
      With no row, or a row shorter than row 0, the source's lookups would fail. */
  predicate Valid(m: Grille) {
    |m| > 0 && forall i :: 0 <= i < |m| ==> |m[i]| == |m[0]|
  }

  /** Width of the map: the number of rows. */
  function Largeur(m: Grille): (w: nat)
    requires Valid(m)
    ensures w > 0
  {
    |m|
  }

  /** Length of the map: the size of row 0, which every row shares. */
  function Longueur(m: Grille): (l: nat)
    requires Valid(m)
    ensures forall i :: 0 <= i < |m| ==> |m[i]| == l
  {
    |m[0]|
  }

  predicate InBounds(m: Grille, p: Pos)
    requires Valid(m)
  {
    0 <= p.x < Largeur(m) && 0 <= p.y < Longueur(m)
  }

  /** A land cell of the map (false for any coordinate outside it). */
  predicate IsLandCell(m: Grille, p: Pos) {
    0 <= p.x < |m| && 0 <= p.y < |m[p.x]| && m[p.x][p.y] == TERRE
  }

  /** The coordinates on which the land test does not fail: the source checks only
      the upper bounds, so a negative coordinate below both upper bounds indexes the
      matrix at a negative position. */
  predicate Indexable(m: Grille, p: Pos)
    requires Valid(m)
  {
    p.x < Largeur(m) && p.y < Longueur(m) ==> 0 <= p.x && 0 <= p.y
  }

  /** The land test of the island: upper bounds first, then the cell value. */
  function IsTerre(m: Grille, x: int, y: int): (r: bool)
    requires Valid(m) && Indexable(m, Pos(x, y))
    ensures x >= Largeur(m) || y >= Longueur(m) ==> !r
    ensures r <==> IsLandCell(m, Pos(x, y))
  {
    x < Largeur(m) && y < Longueur(m) && m[x][y] == TERRE
  }

  /** Sequences without repetition. */
  predicate Distinct(s: seq<Pos>) {
    forall i, j :: 0 <= i < j < |s| ==> s[i] != s[j]
  }

  /** Row-major order on cells: by x, then by y. */
  predicate Before(a: Pos, b: Pos) {
    a.x < b.x || (a.x == b.x && a.y < b.y)
  }

  predicate StrictlySorted(s: seq<Pos>) {
    forall i, j :: 0 <= i < j < |s| ==> Before(s[i], s[j])
  }

  lemma SortedIsDistinct(s: seq<Pos>)
    requires StrictlySorted(s)
    ensures Distinct(s)
  {
    forall i, j | 0 <= i < j < |s| ensures s[i] != s[j] {
      assert Before(s[i], s[j]);
    }
  }

  /** The set of land cells of a map. */
  function LandSet(m: Grille): set<Pos> {
    set x, y | 0 <= x < |m| && 0 <= y < |m[x]| && m[x][y] == TERRE :: Pos(x, y)
  }

  /** Land cells of row `x` among its first `upTo` cells, in increasing y. */
  function RowLand(m: Grille, x: nat, upTo: nat): seq<Pos>
    requires x < |m| && upTo <= |m[x]|
  {
    if upTo == 0 then []
    else RowLand(m, x, upTo - 1) + (if m[x][upTo - 1] == TERRE then [Pos(x, upTo - 1)] else [])
  }

  /** Land cells of the first `rows` rows, row by row. */
  function LandUpTo(m: Grille, rows: nat): seq<Pos>
    requires Valid(m) && rows <= |m|
  {
    if rows == 0 then [] else LandUpTo(m, rows - 1) + RowLand(m, rows - 1, |m[0]|)
  }

  /** Reference definition of the land-cell list: all rows, in order. */
  function LandCells(m: Grille): seq<Pos>
    requires Valid(m)
  {
    LandUpTo(m, |m|)
  }

  /** The land-cell list of a one-row map of three land cells. */
  lemma LandCellsOfOneRow()
    ensures LandCells([[TERRE, TERRE, TERRE]]) == [Pos(0, 0), Pos(0, 1), Pos(0, 2)]
  {
    var m := [[TERRE, TERRE, TERRE]];
    assert RowLand(m, 0, 0) == [];
    assert RowLand(m, 0, 1) == [Pos(0, 0)];
    assert RowLand(m, 0, 2) == [Pos(0, 0), Pos(0, 1)];
    assert RowLand(m, 0, 3) == [Pos(0, 0), Pos(0, 1), Pos(0, 2)];
    assert LandUpTo(m, 0) == [];
    assert LandUpTo(m, 1) == RowLand(m, 0, 3);
  }

  lemma {:induction false} RowLandSpec(m: Grille, x: nat, upTo: nat)
    requires x < |m| && upTo <= |m[x]|
    ensures forall c :: c in RowLand(m, x, upTo) <==> c.x == x && 0 <= c.y < upTo && m[x][c.y] == TERRE
    ensures forall k :: 0 <= k < |RowLand(m, x, upTo)| ==> RowLand(m, x, upTo)[k].x == x
    ensures StrictlySorted(RowLand(m, x, upTo))
  {
    if upTo > 0 {
      RowLandSpec(m, x, upTo - 1);
      var prev := RowLand(m, x, upTo - 1);
      var s := RowLand(m, x, upTo);
      assert s == prev + (if m[x][upTo - 1] == TERRE then [Pos(x, upTo - 1)] else []);
      forall i, j | 0 <= i < j < |s| ensures Before(s[i], s[j]) {
        if j >= |prev| {
          assert s[i] in prev;
        }
      }
    }
  }

  lemma {:induction false} LandUpToMembers(m: Grille, rows: nat)
    requires Valid(m) && rows <= |m|
    ensures forall c :: c in LandUpTo(m, rows) <==> 0 <= c.x < rows && IsLandCell(m, c)
  {
    if rows > 0 {
      LandUpToMembers(m, rows - 1);
      RowLandSpec(m, rows - 1, |m[0]|);
      assert LandUpTo(m, rows) == LandUpTo(m, rows - 1) + RowLand(m, rows - 1, |m[0]|);
    }
  }

  lemma {:induction false} LandUpToSorted(m: Grille, rows: nat)
    requires Valid(m) && rows <= |m|
    ensures StrictlySorted(LandUpTo(m, rows))
  {
    if rows > 0 {
      LandUpToSorted(m, rows - 1);
      LandUpToMembers(m, rows - 1);
      RowLandSpec(m, rows - 1, |m[0]|);
      var prev := LandUpTo(m, rows - 1);
      var row := RowLand(m, rows - 1, |m[0]|);
      var s := LandUpTo(m, rows);
      assert s == prev + row;
      forall i, j | 0 <= i < j < |s| ensures Before(s[i], s[j]) {
        if i < |prev| && j >= |prev| {
          assert s[i] in prev;
          assert s[i].x < rows - 1;
          assert s[j] == row[j - |prev|];
        } else if j < |prev| {
          assert s[i] == prev[i] && s[j] == prev[j];
        } else {
          assert s[i] == row[i - |prev|] && s[j] == row[j - |prev|];
        }
      }
    }
  }

  lemma {:induction false} DistinctCard(s: seq<Pos>)
    requires Distinct(s)
    ensures |set c | c in s| == |s|
  {
    if |s| > 0 {
      var init := s[..|s| - 1];
      assert Distinct(init);
      DistinctCard(init);
      assert (set c | c in s) == (set c | c in init) + {s[|s| - 1]};
      assert s[|s| - 1] !in init;
    }
  }

  /** The land-cell list holds exactly the land cells, each once, in row-major order,
      so its length is the number of land cells. */
  lemma LandCellsSpec(m: Grille)
    requires Valid(m)
    ensures forall c :: c in LandCells(m) <==> IsLandCell(m, c)
    ensures StrictlySorted(LandCells(m)) && Distinct(LandCells(m))
    ensures |LandCells(m)| == |LandSet(m)|
  {
    LandUpToMembers(m, |m|);
    LandUpToSorted(m, |m|);
    SortedIsDistinct(LandCells(m));
    DistinctCard(LandCells(m));
    assert (set c | c in LandCells(m)) == LandSet(m);
  }

  /** The island's land-cell list, built with the two nested loops of the source. */
  method GenererListCasesTerre(m: Grille) returns (cases: seq<Pos>)
    requires Valid(m)
    ensures cases == LandCells(m)
    ensures forall c :: c in cases <==> IsLandCell(m, c)
    ensures StrictlySorted(cases)
    ensures |cases| == |LandSet(m)|
  {
    var largeur := Largeur(m);
    var longueur := Longueur(m);
    cases := [];
    var i := 0;
    while i < largeur
      invariant 0 <= i <= largeur
      invariant cases == LandUpTo(m, i)
    {
      var j := 0;
      while j < longueur
        invariant 0 <= j <= longueur
        invariant cases == LandUpTo(m, i) + RowLand(m, i, j)
      {
        if m[i][j] == TERRE {
          cases := cases + [Pos(i, j)];
        }
        j := j + 1;
      }
      i := i + 1;
    }
    LandCellsSpec(m);
  }
}

=== FILE: controleur.dfy ===
/** The controller's part of the core: the example map and the order in which the
    island is set up. */
module Controleur {
  import opened Carte
  import opened Tirage
  import opened Singe
  import opened Ile
  import opened Bande

  const LARGEUR_GRILLE: nat := 30
  const HAUTEUR_GRILLE: nat := 30
  const NOMBRE_SINGES_ERRATIQUES: int := 50
  const IMAGE_PIRATE: string := "./img/Mon_pirate.png"

  /** The number of land cells of the example map: every cell off the border. */
  const TERRES_EXEMPLE: nat := (LARGEUR_GRILLE - 2) * (HAUTEUR_GRILLE - 2)

  /** (x, y) lies on the first or last row, or on the first or last column. */
  predicate Bord(w: int, h: int, x: int, y: int) {
    x == 0 || x == w - 1 || y == 0 || y == h - 1
  }

  /** `c` lies strictly inside a map of `w` rows of `h` cells. */
  predicate Interieur(w: int, h: int, c: Pos) {
    1 <= c.x < w - 1 && 1 <= c.y < h - 1
  }

  /** `w` rows of `h` cells. */
  predicate Forme(m: Grille, w: nat, h: nat) {
    |m| == w && forall x :: 0 <= x < w ==> |m[x]| == h
  }

  /** `w` rows of `h` cells, sea on the border and land everywhere inside. */
  ghost predicate BordureDeMer(m: Grille, w: nat, h: nat) {
    && Forme(m, w, h)
    && (forall x, y :: 0 <= x < w && 0 <= y < h && Bord(w, h, x, y) ==> m[x][y] == MER)
    && (forall x, y :: 1 <= x < w - 1 && 1 <= y < h - 1 ==> m[x][y] == TERRE)
  }

  /** The example map: a zero-filled matrix, whose border cells are then set to sea
      and whose interior cells are set to land, with the source's four loops. */
  method ExempleCarte() returns (carte: Grille)
    ensures BordureDeMer(carte, LARGEUR_GRILLE, HAUTEUR_GRILLE)
  {
    var w := LARGEUR_GRILLE;
    var h := HAUTEUR_GRILLE;
    carte := seq(w, _ => seq(h, _ => MER));
    var i := 0;
    while i < w
      invariant 0 <= i <= w && Forme(carte, w, h)
      invariant forall x, y :: 0 <= x < w && 0 <= y < h ==> carte[x][y] == MER
    {
      carte := carte[i := carte[i][0 := MER]];
      carte := carte[i := carte[i][h - 1 := MER]];
      i := i + 1;
    }
    var j := 0;
    while j < h
      invariant 0 <= j <= h && Forme(carte, w, h)
      invariant forall x, y :: 0 <= x < w && 0 <= y < h ==> carte[x][y] == MER
    {
      carte := carte[0 := carte[0][j := MER]];
      carte := carte[w - 1 := carte[w - 1][j := MER]];
      j := j + 1;
    }
    var k := 1;
    while k < w - 1
      invariant 1 <= k <= w - 1 && Forme(carte, w, h)
      invariant forall x, y :: 0 <= x < w && 0 <= y < h ==>
        carte[x][y] == if 1 <= x < k && 1 <= y < h - 1 then TERRE else MER
    {
      var l := 1;
      while l < h - 1
        invariant 1 <= l <= h - 1 && Forme(carte, w, h)
        invariant forall x, y :: 0 <= x < w && 0 <= y < h ==>
          carte[x][y] == if (1 <= x < k && 1 <= y < h - 1) || (x == k && 1 <= y < l) then TERRE else MER
      {
        carte := carte[k := carte[k][l := TERRE]];
        l := l + 1;
      }
      k := k + 1;
    }
  }

  /** On a sea-bordered map the land cells are exactly the interior cells. */
  lemma BordureLand(m: Grille, w: nat, h: nat, c: Pos)
    requires BordureDeMer(m, w, h)
    ensures IsLandCell(m, c) <==> Interieur(w, h, c)
  {
    if 0 <= c.x < w && 0 <= c.y < h && Bord(w, h, c.x, c.y) {
      assert m[c.x][c.y] == MER;
    }
  }

  /** No land cell touches the border, so every neighbour of a land cell lies on the
      map: the land test's missing check for negative coordinates is never reached. */
  lemma LandNeighboursOnMap(m: Grille, w: nat, h: nat, c: Pos, d: Dir)
    requires BordureDeMer(m, w, h) && w > 0 && IsLandCell(m, c)
    ensures Valid(m) && InBounds(m, Voisin(c, d))
    ensures SansTerreBasse(m)
  {
    BordureLand(m, w, h, c);
    forall c' | IsLandCell(m, c') ensures c'.x >= 1 && c'.y >= 1 {
      BordureLand(m, w, h, c');
    }
  }

  lemma {:induction false} RowLandCount(m: Grille, w: nat, h: nat, x: nat, u: nat)
    requires BordureDeMer(m, w, h) && x < w && u <= h
    ensures |RowLand(m, x, u)| == if 1 <= x < w - 1 && u >= 2 then (if u <= h - 1 then u - 1 else h - 2) else 0
  {
    if u > 0 {
      RowLandCount(m, w, h, x, u - 1);
      if !(1 <= x < w - 1 && 1 <= u - 1 < h - 1) {
        assert Bord(w, h, x, u - 1);
        assert m[x][u - 1] == MER;
      }
    }
  }

  lemma {:induction false} LandUpToCount(m: Grille, w: nat, h: nat, rows: nat)
    requires BordureDeMer(m, w, h) && w > 0 && h >= 2 && rows <= w
    ensures Valid(m)
    ensures |LandUpTo(m, rows)| == (if rows >= 2 then (if rows <= w - 1 then rows - 1 else w - 2) else 0) * (h - 2)
  {
    if rows > 0 {
      LandUpToCount(m, w, h, rows - 1);
      RowLandCount(m, w, h, rows - 1, h);
      assert |m[0]| == h;
      var a := if rows - 1 >= 2 then (if rows - 1 <= w - 1 then rows - 2 else w - 2) else 0;
      assert |LandUpTo(m, rows)| == a * (h - 2) + |RowLand(m, rows - 1, h)|;
      if 1 <= rows - 1 < w - 1 {
        assert a * (h - 2) + (h - 2) == (a + 1) * (h - 2);
      }
    }
  }

  /** A sea-bordered map has (w - 2) * (h - 2) land cells. */
  lemma LandCount(m: Grille, w: nat, h: nat)
    requires BordureDeMer(m, w, h) && w >= 2 && h >= 2
    ensures Valid(m)
    ensures |LandCells(m)| == (w - 2) * (h - 2)
  {
    LandUpToCount(m, w, h, w);
  }

  /** The example map has 28 * 28 = 784 land cells, so the 50 monkeys requested at
      start-up are all added (the clamp is not reached). */
  lemma ExempleCount(m: Grille)
    requires BordureDeMer(m, LARGEUR_GRILLE, HAUTEUR_GRILLE)
    ensures Valid(m) && |LandCells(m)| == TERRES_EXEMPLE
    ensures NombreSinges(NOMBRE_SINGES_ERRATIQUES, |LandCells(m)|) == NOMBRE_SINGES_ERRATIQUES
  {
    LandCount(m, LARGEUR_GRILLE, HAUTEUR_GRILLE);
  }

  /** The draws the start-up consumes: cells on the 30 x 30 map for the treasure and
      pirate loops, and for the monkeys list indices up to the size of the shrinking
      list, that size included, as the generator's bound `size + 1` allows. */
  predicate TiragesDemarrage(tresor: seq<Pos>, singes: seq<nat>, pirate: seq<Pos>) {
    && (forall k :: 0 <= k < |tresor| ==> 0 <= tresor[k].x < LARGEUR_GRILLE && 0 <= tresor[k].y < HAUTEUR_GRILLE)
    && |singes| >= NOMBRE_SINGES_ERRATIQUES
    && (forall k :: 0 <= k < NOMBRE_SINGES_ERRATIQUES ==> singes[k] <= TERRES_EXEMPLE - k)
    && (forall k :: 0 <= k < |pirate| ==> 0 <= pirate[k].x < LARGEUR_GRILLE && 0 <= pirate[k].y < HAUTEUR_GRILLE)
  }

  /** The monkeys the corrected call places on an empty band stand on distinct land
      cells. */
  lemma SingesPlaces(e: Etat, n: int, singes: seq<nat>, r: Etat)
    requires Valid(e.carte) && e.singes == [] && DrawsInRange(e, n, singes)
    requires r == AjoutSingesErratiquesCorrige(e, n, singes)
    ensures Distinct(r.singes) && SurTerre(r)
  {
    assert r.singes[0..] == r.singes;
  }

  /** Announcements counted from an empty band: the k-th new notification is monkey k's. */
  lemma AnnoncesDepuisVide(e: Etat, r: Etat)
    requires e.singes == [] && |e.journal| + |r.singes| <= |r.journal|
    requires forall k :: |e.singes| <= k < |r.singes| ==>
      r.journal[|e.journal| + (k - |e.singes|)] == SingeCree(k, r.singes[k].x, r.singes[k].y)
    ensures forall k :: 0 <= k < |r.singes| ==> r.journal[|e.journal| + k] == SingeCree(k, r.singes[k].x, r.singes[k].y)
  {
  }

  /** Their announcements: monkey k is announced k-th, with id k. */
  lemma SingesAnnonces(e: Etat, singes: seq<nat>, r: Etat)
    requires Valid(e.carte) && e.singes == []
    requires DrawsInRange(e, NOMBRE_SINGES_ERRATIQUES, singes)
    requires r == AjoutSingesErratiquesCorrige(e, NOMBRE_SINGES_ERRATIQUES, singes)
    ensures |r.journal| == |e.journal| + |r.singes| && r.journal[..|e.journal|] == e.journal
    ensures forall k :: 0 <= k < |r.singes| ==> r.journal[|e.journal| + k] == SingeCree(k, r.singes[k].x, r.singes[k].y)
  {
    AnnoncesDepuisVide(e, r);
  }

  /** The monkey stage of the set-up, with the placement as written: on a map of 784
      land cells, it stops (`None`) exactly when some draw reaches the size of the
      candidate list at its iteration; otherwise the empty band receives 50 monkeys on
      distinct land cells, announced with ids 0 to 49 after the earlier notifications. */
  method PlacerSinges(e: Etat, singes: seq<nat>) returns (r: Option<Etat>)
    requires Valid(e.carte) && |LandCells(e.carte)| == TERRES_EXEMPLE && e.singes == []
    requires |singes| >= NOMBRE_SINGES_ERRATIQUES
    ensures r.None? <==> exists k :: 0 <= k < NOMBRE_SINGES_ERRATIQUES && singes[k] >= TERRES_EXEMPLE - k
    ensures r.Some? ==> var p := r.value;
      && p.carte == e.carte && p.tresor == e.tresor && p.pirate == e.pirate
      && |p.singes| == NOMBRE_SINGES_ERRATIQUES && Distinct(p.singes) && SurTerre(p)
      && |p.journal| == |e.journal| + NOMBRE_SINGES_ERRATIQUES && p.journal[..|e.journal|] == e.journal
      && forall k :: 0 <= k < |p.singes| ==> p.journal[|e.journal| + k] == SingeCree(k, p.singes[k].x, p.singes[k].y)
  {
    SingesExemple(e, singes);
    var a := AjoutSingesErratiques(e, NOMBRE_SINGES_ERRATIQUES, singes);
    if a.echec.Some? {
      return None;
    }
    SingesExempleReussite(e, singes);
    r := Some(a.ile);
  }

  /** The placement as written, called for 50 monkeys on a map of 784 land cells,
      completes iff every draw is below the list size at its iteration. */
  lemma SingesExemple(e: Etat, singes: seq<nat>)
    requires Valid(e.carte) && |LandCells(e.carte)| == TERRES_EXEMPLE && e.singes == []
    requires |singes| >= NOMBRE_SINGES_ERRATIQUES
    ensures NombreSinges(NOMBRE_SINGES_ERRATIQUES, |LandCells(e.carte)|) == NOMBRE_SINGES_ERRATIQUES
    ensures AjoutSingesErratiques(e, NOMBRE_SINGES_ERRATIQUES, singes).echec.None? <==>
      forall k :: 0 <= k < NOMBRE_SINGES_ERRATIQUES ==> singes[k] < TERRES_EXEMPLE - k
  {
    assert TERRES_EXEMPLE == 784;
    AjoutSucceedsIff(e, NOMBRE_SINGES_ERRATIQUES, singes);
  }

  /** When it completes, it places and announces the monkeys as the corrected call
      does: 50 of them on distinct land cells, announced with ids 0 to 49. */
  lemma SingesExempleReussite(e: Etat, singes: seq<nat>)
    requires Valid(e.carte) && |LandCells(e.carte)| == TERRES_EXEMPLE && e.singes == []
    requires |singes| >= NOMBRE_SINGES_ERRATIQUES
    requires forall k :: 0 <= k < NOMBRE_SINGES_ERRATIQUES ==> singes[k] < TERRES_EXEMPLE - k
    ensures var p := AjoutSingesErratiques(e, NOMBRE_SINGES_ERRATIQUES, singes);
      && p.echec.None?
      && p.ile.carte == e.carte && p.ile.tresor == e.tresor && p.ile.pirate == e.pirate
      && |p.ile.singes| == NOMBRE_SINGES_ERRATIQUES && Distinct(p.ile.singes) && SurTerre(p.ile)
      && |p.ile.journal| == |e.journal| + NOMBRE_SINGES_ERRATIQUES && p.ile.journal[..|e.journal|] == e.journal
      && forall k :: 0 <= k < |p.ile.singes| ==>
           p.ile.journal[|e.journal| + k] == SingeCree(k, p.ile.singes[k].x, p.ile.singes[k].y)
  {
    SingesExemple(e, singes);
    FirstCallAgrees(e, NOMBRE_SINGES_ERRATIQUES, singes);
    var c := AjoutSingesErratiquesCorrige(e, NOMBRE_SINGES_ERRATIQUES, singes);
    SingesPlaces(e, NOMBRE_SINGES_ERRATIQUES, singes, c);
    SingesAnnonces(e, singes, c);
  }

  /** The pirate stage of the set-up: the pirate, placed last, avoids every monkey;
      nothing else changes and nothing is announced. */
  method PlacerPirate(e: Etat, pirate: seq<Pos>) returns (r: Option<Etat>)
    requires Valid(e.carte) && DrawsOnMap(e.carte, pirate)
    ensures r.None? <==> forall k :: 0 <= k < |pirate| ==> !(IsLandCell(e.carte, pirate[k]) && pirate[k] !in e.singes)
    ensures r.Some? ==> var p := r.value;
      && p.carte == e.carte && p.singes == e.singes && p.tresor == e.tresor && p.journal == e.journal
      && p.pirate.avatar == IMAGE_PIRATE && p.pirate.position.Some?
      && IsLandCell(e.carte, p.pirate.position.value) && p.pirate.position.value !in e.singes
  {
    r := AjoutPirate(e, IMAGE_PIRATE, pirate);
  }

  /** On the example map the treasure loop accepts exactly the interior draws. */
  lemma TresorDemarrage(m: Grille, tresor: seq<Pos>)
    requires BordureDeMer(m, LARGEUR_GRILLE, HAUTEUR_GRILLE)
    ensures forall k :: 0 <= k < |tresor| ==>
      (IsLandCell(m, tresor[k]) <==> Interieur(LARGEUR_GRILLE, HAUTEUR_GRILLE, tresor[k]))
  {
    forall k | 0 <= k < |tresor|
      ensures IsLandCell(m, tresor[k]) <==> Interieur(LARGEUR_GRILLE, HAUTEUR_GRILLE, tresor[k])
    {
      BordureLand(m, LARGEUR_GRILLE, HAUTEUR_GRILLE, tresor[k]);
    }
  }

  /** The example map has no land on row 0 or column 0. */
  lemma ExempleSansTerreBasse(m: Grille)
    requires BordureDeMer(m, LARGEUR_GRILLE, HAUTEUR_GRILLE)
    ensures SansTerreBasse(m)
  {
    forall c | IsLandCell(m, c) ensures c.x >= 1 && c.y >= 1 {
      BordureLand(m, LARGEUR_GRILLE, HAUTEUR_GRILLE, c);
    }
  }

  /** The first two stages of the set-up: the example map is created and announced,
      then the treasure is placed on the first interior draw and announced. */
  method CreerCarteEtTresor(tresor: seq<Pos>) returns (t: Option<Etat>)
    requires forall k :: 0 <= k < |tresor| ==> 0 <= tresor[k].x < LARGEUR_GRILLE && 0 <= tresor[k].y < HAUTEUR_GRILLE
    ensures t.None? <==> forall k :: 0 <= k < |tresor| ==> !Interieur(LARGEUR_GRILLE, HAUTEUR_GRILLE, tresor[k])
    ensures t.Some? ==> var e := t.value;
      && Valid(e.carte) && |e.carte| == LARGEUR_GRILLE && |e.carte[0]| == HAUTEUR_GRILLE
      && BordureDeMer(e.carte, LARGEUR_GRILLE, HAUTEUR_GRILLE)
      && |LandCells(e.carte)| == TERRES_EXEMPLE && SansTerreBasse(e.carte)
      && e.singes == [] && e.pirate == Initiale.pirate
      && e.tresor.Some? && IsLandCell(e.carte, e.tresor.value)
      && e.journal == [CarteCreee(e.carte), TresorCree(e.tresor.value.x, e.tresor.value.y)]
  {
    var carte := ExempleCarte();
    ExempleCount(carte);
    ExempleSansTerreBasse(carte);
    TresorDemarrage(carte, tresor);
    var e1 := CreationCarte(Initiale, carte);
    t := CreationTresor(e1, tresor);
    assert t.None? <==> forall k :: 0 <= k < |tresor| ==> !IsLandCell(carte, tresor[k]);
  }

  /** Every pirate draw is off the interior of the example map or on one of the
      `occupees` cells. */
  ghost predicate PirateBloque(pirate: seq<Pos>, occupees: seq<Pos>) {
    forall k :: 0 <= k < |pirate| ==> !Interieur(LARGEUR_GRILLE, HAUTEUR_GRILLE, pirate[k]) || pirate[k] in occupees
  }

  /** The controller's set-up: map, then treasure, then 50 monkeys, then the pirate.
      Because the pirate comes last, its placement sees every monkey. `None` exactly
      when a stage fails: no treasure draw is interior, a monkey draw hit the top of
      its range, or every pirate draw is off the interior or on one of the 50 cells
      the monkeys were given. */
  method Demarrage(tresor: seq<Pos>, singes: seq<nat>, pirate: seq<Pos>) returns (r: Option<Etat>)
    requires TiragesDemarrage(tresor, singes, pirate)
    ensures (forall k :: 0 <= k < |tresor| ==> !Interieur(LARGEUR_GRILLE, HAUTEUR_GRILLE, tresor[k])) ==> r.None?
    ensures (exists k :: 0 <= k < NOMBRE_SINGES_ERRATIQUES && singes[k] == TERRES_EXEMPLE - k) ==> r.None?
    ensures r.Some? ==> forall k :: 0 <= k < NOMBRE_SINGES_ERRATIQUES ==> singes[k] < TERRES_EXEMPLE - k
    ensures r.None? ==>
      || (forall k :: 0 <= k < |tresor| ==> !Interieur(LARGEUR_GRILLE, HAUTEUR_GRILLE, tresor[k]))
      || (exists k :: 0 <= k < NOMBRE_SINGES_ERRATIQUES && singes[k] == TERRES_EXEMPLE - k)
      || (exists occupees: seq<Pos> :: |occupees| == NOMBRE_SINGES_ERRATIQUES && Distinct(occupees)
            && PirateBloque(pirate, occupees))
    ensures r.Some? ==> var e := r.value;
      && Valid(e.carte) && |e.singes| == NOMBRE_SINGES_ERRATIQUES
      && Distinct(e.singes) && SurTerre(e) && SansTerreBasse(e.carte)
      && e.tresor.Some? && IsLandCell(e.carte, e.tresor.value)
      && e.pirate.avatar == IMAGE_PIRATE && e.pirate.position.Some?
      && IsLandCell(e.carte, e.pirate.position.value) && e.pirate.position.value !in e.singes
    ensures r.Some? ==> var e := r.value;
      && |e.journal| == 2 + NOMBRE_SINGES_ERRATIQUES
      && e.journal[0] == CarteCreee(e.carte)
      && e.journal[1] == TresorCree(e.tresor.value.x, e.tresor.value.y)
      && forall k :: 0 <= k < |e.singes| ==> e.journal[2 + k] == SingeCree(k, e.singes[k].x, e.singes[k].y)
  {
    var t := CreerCarteEtTresor(tresor);
    if t.None? {
      return None;
    }
    var e2 := t.value;
    var s := PlacerSinges(e2, singes);
    if s.None? {
      return None;
    }
    var e3 := s.value;
    assert e3.journal[0] == e2.journal[0] && e3.journal[1] == e2.journal[1];
    var p := PlacerPirate(e3, pirate);
    if p.None? {
      forall k | 0 <= k < |pirate| ensures !Interieur(LARGEUR_GRILLE, HAUTEUR_GRILLE, pirate[k]) || pirate[k] in e3.singes {
        BordureLand(e3.carte, LARGEUR_GRILLE, HAUTEUR_GRILLE, pirate[k]);
      }
      assert PirateBloque(pirate, e3.singes);
      return None;
    }
    var e4 := p.value;
    assert e4.journal == e3.journal && e4.singes == e3.singes;
    assert |e2.journal| == 2;
    forall k | 0 <= k < |e4.singes|
      ensures e4.journal[2 + k] == SingeCree(k, e4.singes[k].x, e4.singes[k].y)
    {
      assert e3.journal[|e2.journal| + k] == SingeCree(k, e3.singes[k].x, e3.singes[k].y);
    }
    r := p;
  }
}

=== FILE: ile.dfy ===
/** The island: the authority on land, occupancy and move admission, and the owner
    of the map, the monkeys' positions, the treasure and the pirate. Every operation
    returns the next state; notifications to the registered observers are appended
    to `journal`, one entry per notification (each entry reaches every observer). */
module Ile {
  import opened Carte
  import opened Tirage

  datatype Notification =
    | CarteCreee(carte: Grille)
    | CarteChangee(carte: Grille)
    | TresorCree(x: int, y: int)
    | TresorSupprime
    | SingeCree(id: int, x: int, y: int)
    | SingeDeplace(id: int, x: int, y: int)

  /** The pirate as far as the island sees it: its avatar, its initial position once
      placed, and the indices of the monkeys that called its kill handler, in order. */
  datatype Pirate = Pirate(avatar: string, position: Option<Pos>, attaques: seq<nat>)

  /** `singes` lists the erratic monkeys' positions in collection order. */
  datatype Etat = Etat(
    carte: Grille,
    singes: seq<Pos>,
    tresor: Option<Pos>,
    pirate: Pirate,
    journal: seq<Notification>)

  /** The island as constructed: no map yet (the empty matrix), no monkey, no treasure. */
  const Initiale: Etat := Etat([], [], None, Pirate("", None, []), [])

  /** The occupancy scan: walks the monkeys in order and stops at the first one on `p`. */
  function NoSingeAt(singes: seq<Pos>, p: Pos): (r: bool)
    ensures r <==> forall k :: 0 <= k < |singes| ==> singes[k] != p
  {
    if |singes| == 0 then true
    else if singes[0] == p then false
    else NoSingeAt(singes[1..], p)
  }

  /** A cell is free when no monkey stands on it; the pirate does not count. */
  function IsLibre(e: Etat, x: int, y: int): (r: bool)
    ensures r <==> Pos(x, y) !in e.singes
  {
    NoSingeAt(e.singes, Pos(x, y))
  }

  /** The one admission test for every move: land, and no monkey there. */
  function IsDeplacementPossible(e: Etat, x: int, y: int): (r: bool)
    requires Valid(e.carte) && Indexable(e.carte, Pos(x, y))
    ensures r <==> IsLandCell(e.carte, Pos(x, y)) && Pos(x, y) !in e.singes
    ensures x >= Largeur(e.carte) || y >= Longueur(e.carte) ==> !r
  {
    IsTerre(e.carte, x, y) && IsLibre(e, x, y)
  }

  /** The admission test as an oracle over cells, defined where it does not fail. */
  function Admission(e: Etat): (a: Pos --> bool)
    requires Valid(e.carte)
    ensures forall p :: Indexable(e.carte, p) ==> a.requires(p)
    ensures forall p :: Indexable(e.carte, p) ==> (a(p) <==> IsLandCell(e.carte, p) && p !in e.singes)
  {
    (p: Pos) requires Valid(e.carte) && Indexable(e.carte, p) => IsDeplacementPossible(e, p.x, p.y)
  }

  /** Stores the map and announces it as created. */
  function CreationCarte(e: Etat, carte: Grille): (r: Etat)
    ensures r.carte == carte && r.journal == e.journal + [CarteCreee(carte)]
    ensures r.singes == e.singes && r.tresor == e.tresor && r.pirate == e.pirate
  {
    e.(carte := carte, journal := e.journal + [CarteCreee(carte)])
  }

  /** Stores the map and announces it as changed. */
  function SetCarte(e: Etat, carte: Grille): (r: Etat)
    ensures r.carte == carte && r.journal == e.journal + [CarteChangee(carte)]
    ensures r.singes == e.singes && r.tresor == e.tresor && r.pirate == e.pirate
  {
    e.(carte := carte, journal := e.journal + [CarteChangee(carte)])
  }

  /** Creating and replacing the map reach the same state except for the last
      notification, which tells the observers which of the two happened. */
  lemma CreationAndSetCarteDifferOnlyInEvent(e: Etat, carte: Grille)
    ensures CreationCarte(e, carte).(journal := e.journal) == SetCarte(e, carte).(journal := e.journal)
    ensures CreationCarte(e, carte).journal[..|e.journal|] == SetCarte(e, carte).journal[..|e.journal|]
    ensures CreationCarte(e, carte).journal[|e.journal|] != SetCarte(e, carte).journal[|e.journal|]
  {
  }

  /** Every draw of the random-cell generator lies on the map. */
  predicate DrawsOnMap(m: Grille, draws: seq<Pos>)
    requires Valid(m)
  {
    forall k :: 0 <= k < |draws| ==> InBounds(m, draws[k])
  }

  /** `t` is the first of `draws` that satisfies the land test. */
  predicate FirstLandDraw(m: Grille, draws: seq<Pos>, t: Pos) {
    exists k :: 0 <= k < |draws| && draws[k] == t && forall j :: 0 <= j < k ==> !IsLandCell(m, draws[j])
  }

  /** Treasure placement by rejection sampling over the supplied draws: the first drawn
      cell of value 1 gets the treasure, whether or not a monkey stands there.
      `None` means no draw was accepted (the source would keep drawing). */
  function CreationTresor(e: Etat, draws: seq<Pos>): (r: Option<Etat>)
    requires Valid(e.carte) && DrawsOnMap(e.carte, draws)
    ensures r.None? <==> forall k :: 0 <= k < |draws| ==> !IsLandCell(e.carte, draws[k])
    ensures r.Some? ==> r.value.tresor.Some? && IsLandCell(e.carte, r.value.tresor.value)
    ensures r.Some? ==> FirstLandDraw(e.carte, draws, r.value.tresor.value)
    ensures r.Some? ==> r.value.journal == e.journal + [TresorCree(r.value.tresor.value.x, r.value.tresor.value.y)]
    ensures r.Some? ==> r.value.carte == e.carte && r.value.singes == e.singes && r.value.pirate == e.pirate
  {
    match FirstAccepted(draws, (c: Pos) => IsLandCell(e.carte, c))
    case None => None
    case Some(k) =>
      var t := draws[k];
      Some(e.(tresor := Some(t), journal := e.journal + [TresorCree(t.x, t.y)]))
  }

  /** Where the treasure lands does not depend on the monkeys. */
  lemma TresorIgnoresSinges(e: Etat, singes: seq<Pos>, draws: seq<Pos>)
    requires Valid(e.carte) && DrawsOnMap(e.carte, draws)
    ensures CreationTresor(e, draws).Some? == CreationTresor(e.(singes := singes), draws).Some?
    ensures CreationTresor(e, draws).Some? ==>
      CreationTresor(e, draws).value.tresor == CreationTresor(e.(singes := singes), draws).value.tresor
  {
  }

  /** Removal of the treasure: announced first, then a new treasure is created at once. */
  function SuppressionTresor(e: Etat, draws: seq<Pos>): (r: Option<Etat>)
    requires Valid(e.carte) && DrawsOnMap(e.carte, draws)
    ensures r.None? <==> forall k :: 0 <= k < |draws| ==> !IsLandCell(e.carte, draws[k])
    ensures r.Some? ==> r.value.tresor.Some? && IsLandCell(e.carte, r.value.tresor.value)
    ensures r.Some? ==> r.value.journal == e.journal + [TresorSupprime, TresorCree(r.value.tresor.value.x, r.value.tresor.value.y)]
    ensures r.Some? ==> r.value.carte == e.carte && r.value.singes == e.singes && r.value.pirate == e.pirate
  {
    CreationTresor(e.(journal := e.journal + [TresorSupprime]), draws)
  }

  /** `p` is the first of `draws` on free land. */
  predicate FirstFreeLandDraw(e: Etat, draws: seq<Pos>, p: Pos) {
    exists k :: 0 <= k < |draws| && draws[k] == p
      && forall j :: 0 <= j < k ==> !(IsLandCell(e.carte, draws[j]) && draws[j] !in e.singes)
  }

  /** Pirate placement by rejection sampling: the avatar is set, then the first drawn
      cell that passes the admission test becomes the pirate's initial position. The
      island notifies nothing. `None` means no draw was accepted. */
  function AjoutPirate(e: Etat, avatar: string, draws: seq<Pos>): (r: Option<Etat>)
    requires Valid(e.carte) && DrawsOnMap(e.carte, draws)
    ensures r.None? <==> forall k :: 0 <= k < |draws| ==> !(IsLandCell(e.carte, draws[k]) && draws[k] !in e.singes)
    ensures r.Some? ==> r.value.pirate.position.Some?
    ensures r.Some? ==> var p := r.value.pirate.position.value;
      && IsLandCell(e.carte, p) && p !in e.singes && FirstFreeLandDraw(e, draws, p)
      && r.value == e.(pirate := e.pirate.(avatar := avatar, position := Some(p)))
  {
    assert forall k :: 0 <= k < |draws| ==> Indexable(e.carte, draws[k]);
    match FirstAccepted(draws, Admission(e))
    case None => None
    case Some(k) => Some(e.(pirate := e.pirate.(avatar := avatar, position := Some(draws[k]))))
  }
}

=== FILE: singe.dfy ===
/** One step of an erratic monkey. The step asks the island, through an admission
    oracle, about its four orthogonal neighbours in a randomly drawn order and moves
    to the first one accepted; a monkey that moved then tries to kill the pirate.
    The random draw is supplied as the order in which the four directions are tried. */
module Singe {
  import opened Carte
  import opened Tirage

  /** Haut and Bas change y by +1 and -1, Droite and Gauche change x by +1 and -1. */
  datatype Dir = Haut | Bas | Droite | Gauche

  function Voisin(p: Pos, d: Dir): Pos {
    match d
    case Haut => Pos(p.x, p.y + 1)
    case Bas => Pos(p.x, p.y - 1)
    case Droite => Pos(p.x + 1, p.y)
    case Gauche => Pos(p.x - 1, p.y)
  }

  /** `q` is one of the four orthogonal neighbours of `p`. */
  predicate Adjacent(p: Pos, q: Pos) {
    (p.x == q.x && (q.y == p.y + 1 || q.y == p.y - 1))
    || (p.y == q.y && (q.x == p.x + 1 || q.x == p.x - 1))
  }

  /** A draw: the four directions, each once, in the order they are tried. */
  predicate IsOrdering(order: seq<Dir>) {
    |order| == 4 && Haut in order && Bas in order && Droite in order && Gauche in order
  }

  lemma InOrdering(order: seq<Dir>, d: Dir)
    requires IsOrdering(order)
    ensures d in order
  {
    match d
    case Haut =>
    case Bas =>
    case Droite =>
    case Gauche =>
  }

  /** The oracle can be asked about every neighbour of `p`. */
  ghost predicate OracleDefined(p: Pos, accepts: Pos --> bool) {
    forall d: Dir :: accepts.requires(Voisin(p, d))
  }

  /** The neighbours of `p` in the order of the draw. */
  function Candidats(p: Pos, order: seq<Dir>): (c: seq<Pos>)
    ensures |c| == |order|
    ensures forall i :: 0 <= i < |order| ==> c[i] == Voisin(p, order[i])
  {
    seq(|order|, i requires 0 <= i < |order| => Voisin(p, order[i]))
  }

  /** The direction chosen for the next cell, if any, and the directions whose
      neighbour the island was asked about, in asking order. */
  datatype Sondage = Sondage(choix: Option<Dir>, demandes: seq<Dir>)

  /** The next position of a monkey standing on `p`: the first neighbour, in draw
      order, that the island accepts; no further question once one is accepted. */
  function GetNextRandomPos(p: Pos, order: seq<Dir>, accepts: Pos --> bool): (r: Sondage)
    requires IsOrdering(order) && OracleDefined(p, accepts)
    ensures r.choix.None? <==> forall d: Dir :: !accepts(Voisin(p, d))
    ensures r.choix.Some? ==> accepts(Voisin(p, r.choix.value))
    ensures r.choix.Some? ==> |r.demandes| > 0 && r.demandes[|r.demandes| - 1] == r.choix.value
    ensures r.choix.Some? ==> forall k :: 0 <= k < |r.demandes| - 1 ==> !accepts(Voisin(p, r.demandes[k]))
    ensures r.choix.None? ==> r.demandes == order
    ensures r.demandes <= order
  {
    var cands := Candidats(p, order);
    match FirstAccepted(cands, accepts)
    case None =>
      assert forall d: Dir :: !accepts(Voisin(p, d)) by {
        forall d: Dir ensures !accepts(Voisin(p, d)) {
          InOrdering(order, d);
          var i :| 0 <= i < |order| && order[i] == d;
          assert cands[i] == Voisin(p, d);
        }
      }
      Sondage(None, order)
    case Some(k) => Sondage(Some(order[k]), order[..k + 1])
  }

  /** Outcome of one monkey step: its new position and whether it called the
      pirate's kill handler. */
  datatype Pas = Pas(position: Pos, tuePirate: bool)

  /** The monkey step: move to the chosen neighbour and then try to kill the pirate,
      or, when every neighbour is refused, stay and leave the pirate alone. */
  function DeplacerSinge(p: Pos, order: seq<Dir>, accepts: Pos --> bool): (r: Pas)
    requires IsOrdering(order) && OracleDefined(p, accepts)
    ensures r.tuePirate <==> exists d: Dir :: accepts(Voisin(p, d))
    ensures r.tuePirate ==> exists d: Dir :: r.position == Voisin(p, d) && accepts(Voisin(p, d))
    ensures r.tuePirate ==> Adjacent(p, r.position)
    ensures !r.tuePirate ==> r.position == p
  {
    match GetNextRandomPos(p, order, accepts).choix
    case Some(d) => Pas(Voisin(p, d), true)
    case None => Pas(p, false)
  }

  lemma VoisinInjective(p: Pos, d: Dir, e: Dir)
    requires Voisin(p, d) == Voisin(p, e)
    ensures d == e
  {
  }

  /** When the first neighbour asked is accepted, it is the answer and no other
      question is asked. */
  lemma FirstAnswerEndsQuestions(p: Pos, order: seq<Dir>, accepts: Pos --> bool)
    requires IsOrdering(order) && OracleDefined(p, accepts)
    requires accepts(Voisin(p, order[0]))
    ensures GetNextRandomPos(p, order, accepts) == Sondage(Some(order[0]), [order[0]])
  {
    var r := GetNextRandomPos(p, order, accepts);
    assert r.demandes <= order;
  }

  /** A refused neighbour is never the monkey's new cell. */
  lemma RefusedNeverTaken(p: Pos, order: seq<Dir>, accepts: Pos --> bool, d: Dir)
    requires IsOrdering(order) && OracleDefined(p, accepts)
    requires !accepts(Voisin(p, d))
    ensures DeplacerSinge(p, order, accepts).position != Voisin(p, d)
  {
    var r := DeplacerSinge(p, order, accepts);
    if r.tuePirate {
      var e: Dir :| r.position == Voisin(p, e) && accepts(Voisin(p, e));
      if r.position == Voisin(p, d) {
        VoisinInjective(p, d, e);
      }
    }
  }

  /** With exactly one accepted neighbour, every draw leads there. */
  lemma SingleAcceptedIsTaken(p: Pos, order: seq<Dir>, accepts: Pos --> bool, d: Dir)
    requires IsOrdering(order) && OracleDefined(p, accepts)
    requires accepts(Voisin(p, d))
    requires forall e: Dir :: e != d ==> !accepts(Voisin(p, e))
    ensures DeplacerSinge(p, order, accepts) == Pas(Voisin(p, d), true)
  {
    var r := DeplacerSinge(p, order, accepts);
    var e: Dir :| r.position == Voisin(p, e) && accepts(Voisin(p, e));
    assert e == d;
  }

  /** A draw that tries `d` first. */
  function OrdreDepuis(d: Dir): (order: seq<Dir>)
    ensures IsOrdering(order) && order[0] == d
  {
    match d
    case Haut => [Haut, Bas, Droite, Gauche]
    case Bas => [Bas, Haut, Droite, Gauche]
    case Droite => [Droite, Haut, Bas, Gauche]
    case Gauche => [Gauche, Haut, Bas, Droite]
  }

  /** Every accepted neighbour is the outcome of some draw: the choice ranges over
      all accepted directions (the source draws them with equal probability). */
  lemma EveryAcceptedReachable(p: Pos, accepts: Pos --> bool, d: Dir)
    requires OracleDefined(p, accepts)
    requires accepts(Voisin(p, d))
    ensures exists order :: IsOrdering(order) && DeplacerSinge(p, order, accepts) == Pas(Voisin(p, d), true)
  {
    var order := OrdreDepuis(d);
    FirstAnswerEndsQuestions(p, order, accepts);
    assert DeplacerSinge(p, order, accepts) == Pas(Voisin(p, d), true);
  }

  /** The two-direction scenario of the monkey tests: on (3, 13) with only (3, 14)
      and (2, 13) accepted, every draw moves the monkey to one of those two and calls
      the kill handler, and each of the two is reached by some draw. */
  lemma TwoDirectionsScenario(order: seq<Dir>)
    requires IsOrdering(order)
    ensures var accepts := (q: Pos) => q == Pos(3, 14) || q == Pos(2, 13);
      && DeplacerSinge(Pos(3, 13), order, accepts).tuePirate
      && DeplacerSinge(Pos(3, 13), order, accepts).position in {Pos(3, 14), Pos(2, 13)}
      && DeplacerSinge(Pos(3, 13), OrdreDepuis(Haut), accepts).position == Pos(3, 14)
      && DeplacerSinge(Pos(3, 13), OrdreDepuis(Gauche), accepts).position == Pos(2, 13)
  {
    var accepts := (q: Pos) => q == Pos(3, 14) || q == Pos(2, 13);
    assert accepts(Voisin(Pos(3, 13), Haut));
    FirstAnswerEndsQuestions(Pos(3, 13), OrdreDepuis(Haut), accepts);
    FirstAnswerEndsQuestions(Pos(3, 13), OrdreDepuis(Gauche), accepts);
  }
}

=== FILE: tirage.dfy ===
/** Random draws supplied from outside, and the search every rejection loop of the
    island performs over them: take the first drawn candidate that is accepted. */
module Tirage {

  datatype Option<+T> = None | Some(value: T)

  /** Index of the first candidate `accept` answers true for, asking in order and
      stopping at the first yes; `None` when every candidate is refused. */
  function FirstAccepted<T>(cands: seq<T>, accept: T --> bool): (r: Option<nat>)
    requires forall k :: 0 <= k < |cands| ==> accept.requires(cands[k])
    ensures r.Some? ==> r.value < |cands| && accept(cands[r.value])
    ensures r.Some? ==> forall k :: 0 <= k < r.value ==> !accept(cands[k])
    ensures r.None? <==> forall k :: 0 <= k < |cands| ==> !accept(cands[k])
    decreases |cands|
  {
    if |cands| == 0 then None
    else if accept(cands[0]) then Some(0)
    else
      match FirstAccepted(cands[1..], accept)
      case None => None
      case Some(k) => Some(k + 1)
  }
}
